=== FILE: README.md ===
# Bank website back end: a verified model of its decision logic

The repository is a set of Express services over PostgreSQL. Almost every handler passes its parameters to one SQL statement. Three places decide something of their own, and this project models them in Dafny and proves what they promise:

- **Payment reminders** (`backend_files/payment.js`):
  - The `GET /payment-reminders` handler builds a statement from up to three optional query fields (`due_date`, `status`, `priority`) and `sort_by`. Values are bound to numbered placeholders, not written into the text.
  - The create and update handlers refuse a due date before today, but only one the `moment` library can read.
  - Update, complete and delete answer 404 for an unknown id.
- **Transactions** (`backend_files/transactions.js`): the `/transtotal/:user_id` summary gives total income, total expense and balance. A user with no rows gets 404. Update and delete answer 404 for an unknown id.
- **Users** (`backend_files/Signup.js`): the `/login` decision (400, 401 or 200) and the 404 choice of the `/users/:id` handlers.

Layout:

- `wrappers.dfy` (`Wrappers`): the `Option` type.
- `store_types.dfy` (`StoreTypes`): how the store converts a bound parameter to a column type: `VARCHAR(n)`, `INT` and `DATE`.
- `tables.dfy` (`Tables`): a table is a sequence of rows in storage order. This module gives the first row a condition selects, `SELECT … WHERE`, `UPDATE … WHERE` and `DELETE … WHERE`, with what each keeps, changes and reorders.
- `sql_text.dfy` (`SqlText`): how JavaScript renders a placeholder number, the matching parser, and `join`.
- `reminder_query.dfy` (`ReminderQuery`): the filter and sort builder.
  - `BuildQuery` is the handler's push-by-push construction, written as a method.
  - It is proved equal to declarative definitions: `Filters`, `FilterValues`, `FilterQuery`, `OrderQuery` and `Statement`.
  - The properties of the built statement are proved as lemmas about those definitions.
- `payment_reminders.dfy` (`PaymentReminders`): the reminder write handlers, working on a store of rows plus the next SERIAL id.
- `transactions.dfy` (`Transactions`): the summary and the transaction write handlers.
- `users.dfy` (`Users`): login and the by-id user handlers.

Conventions:

- A request field that is absent is `None`. JavaScript truthiness of a string field (`if (due_date)`, `!email`) is `Truthy`: the field is present and is not the empty string.
- Dates are day numbers. The current day and the value of `CURRENT_TIMESTAMP` are parameters.
- Amounts are integer cents. `DECIMAL(10, 2)` holds at most 99999999.99, so the largest magnitude is 9999999999 cents.
- A store error is a 500. Where it happens matters on update. A parameter the store cannot read as its column's type fails while the statement is bound, before any row is matched. A value that breaks a column's NOT NULL, CHECK or length rule fails only when a row is written, so an unknown id is a 404 first. Two bind-time refusals are not modelled, text containing U+0000 and a path id that is not a whole number; see "## Left out".
- Where a statement's result has several rows, the handler uses `rows[0]`. The model takes that to be the first such row in table order.

## Model

| member | source | states |
|---|---|---|
| `SqlText.NatToString` | backend_files/payment.js:83 | the placeholder number after `$` is a non-empty string of decimal digits with no leading zero |
| `SqlText.ParseNatOfNatToString` | backend_files/payment.js:83 | reading a rendered placeholder number back gives the same number |
| `ReminderQuery.Present` | backend_files/payment.js:82-93 | a column gets a clause exactly when its query field is truthy, and the clauses come in the order due_date, status, priority |
| `ReminderQuery.BuildQuery` | backend_files/payment.js:75-110 | the step-by-step construction binds exactly `FilterValues(q)` and produces exactly the text `Statement(q)`: `SELECT * FROM payment_reminders`, then the WHERE part, then the ORDER BY part |
| `SqlText.Join` | backend_files/payment.js:98 | `filters.join(' AND ')` gives an empty text for no parts; otherwise it begins with the first part, followed by the separator when there is more than one part, and ends with the last part |
| `ReminderQuery.FilterQuery` | backend_files/payment.js:96-99 | the WHERE part is empty exactly when no filter field is truthy; otherwise it begins with `WHERE ` and the first clause |
| `ReminderQuery.OrderQuery` | backend_files/payment.js:102-105 | the order is `ORDER BY priority ASC` exactly when `sort_by` is the string "priority", and `ORDER BY due_date ASC` for every other value and for no value |
| `ReminderQuery.StatementShape` | backend_files/payment.js:107-108 | the statement text is the select, a space, the WHERE part, then a space and the order clause; it ends with the order clause whether or not there is a WHERE part |
| `ReminderQuery.ParseClauseOfClause` | backend_files/payment.js:83 | a clause `col = $k` names exactly its column and its placeholder number |
| `ReminderQuery.PlaceholdersLineUp` | backend_files/payment.js:83-92 | there are as many values as clauses; the k-th clause binds `$k`; the k-th value is the value of that clause's field |
| `ReminderQuery.NoFiltersNoWhere` | backend_files/payment.js:96-99 | with no truthy filter field, the WHERE part is empty, no value is bound, and the text is the bare select followed by the order clause |
| `ReminderQuery.SomeFilterGivesWhere` | backend_files/payment.js:96-99 | with any truthy filter field, the WHERE part is `WHERE ` followed by the clauses joined with ` AND `, and at least one value is bound |
| `ReminderQuery.TextIgnoresValues` | backend_files/payment.js:107-110 | two requests with the same truthy fields and the same sorting choice get the same clauses and the same text, whatever their values; values reach the store only as bound parameters |
| `ReminderQuery.ExampleAllFilters` | backend_files/payment.js:82-93 | all three fields give `due_date = $1`, `status = $2`, `priority = $3`, with the values in that order |
| `ReminderQuery.ExamplePriorityOnly` | backend_files/payment.js:86-104 | an empty status adds no clause, so the priority clause takes `$1`; `sort_by=priority` chooses priority order |
| `ReminderQuery.ExampleNoFilters` | backend_files/payment.js:96-105 | no filters and `sort_by=title` give `SELECT * FROM payment_reminders  ORDER BY due_date ASC` |
| `ReminderQuery.ClauseHoldsAt` | backend_files/payment.js:98 | the clause at each position holds of a row exactly when the row's column equals that field's value |
| `ReminderQuery.WhereMeansEquality` | backend_files/payment.js:98 | a row passes the built WHERE part exactly when every truthy field equals the row's column |
| `Tables.FirstWhere` | backend_files/Signup.js:135 | `rows[0]` of a result is the first row, in table order, that the condition selects; there is none exactly when no row is selected |
| `Tables.UpdateWhere` | backend_files/payment.js:130-136 | `UPDATE … WHERE` rewrites every selected row and keeps every other row in its place; the table keeps its length |
| `Tables.DeleteWhere` | backend_files/payment.js:174-177 | `DELETE … WHERE` keeps exactly the rows not selected |
| `Tables.DeleteWhereCounts` | backend_files/payment.js:174-177 | each row not selected remains exactly as often as before, and no selected row remains |
| `Tables.DeleteWhereAppend` | backend_files/payment.js:174-177 | deleting from two stretches of a table is deleting from each, so the remaining rows keep their order |
| `Tables.DeleteWhereKeepsDistinct` | backend_files/payment.js:25 | a delete never creates a duplicate key |
| `Tables.UpdateWhereKeepsDistinct` | backend_files/payment.js:25 | an update that keeps each row's key keeps the keys distinct |
| `StoreTypes.Varchar` | backend_files/payment.js:26 | text of at most n characters (Unicode code points, as Dafny `char`s are) is stored as it is. Longer text is refused unless everything past the n-th character is a space; it is then cut to exactly its first n characters |
| `Tables.SelectWhere` | backend_files/payment.js:107-110 | `SELECT … WHERE` gives exactly the selected rows |
| `Tables.SelectWhereCounts` | backend_files/payment.js:107-110 | each selected row is returned exactly as often as the table holds it, and no other row is returned |
| `Tables.SelectWhereAppend` | backend_files/payment.js:107-110 | selecting from two stretches of a table is selecting from each, so the selected rows keep table order |
| `ReminderQuery.Selected` | backend_files/payment.js:107-110 | the statement selects exactly the table's rows that pass the WHERE part |
| `ReminderQuery.SelectedCounts` | backend_files/payment.js:107-110 | the statement returns each row the request asks for as often as the table holds it, and no other row. The rows come in table order before ORDER BY |
| `ReminderQuery.SelectionNarrows` | backend_files/payment.js:98 | adding filters, with the existing ones unchanged, never adds a row to the selection |
| `ReminderQuery.NoFiltersSelectAll` | backend_files/payment.js:96-99 | without filters, every row is selected |
| `PaymentReminders.MomentSaysPast` | backend_files/payment.js:53 | the gate refuses only a due date the store would also keep as a day before today, and never one `moment` cannot read: an absent field, text only the store reads as a date, or text neither reads |
| `PaymentReminders.Create` | backend_files/payment.js:48-70 | 400 with "Due date cannot be in the past" exactly when the gate refuses. Otherwise 201 exactly when the store accepts the body and the SERIAL sequence has not passed the end of `INT`; the row is appended with the next id, the stored values and both timestamps now. Otherwise 500 with the create error: a NULL in a NOT NULL column, a value the CHECK refuses, a due date the store cannot read, a title longer than `VARCHAR(255)` holds, or an exhausted sequence. Only 201 changes the store |
| `PaymentReminders.Update` | backend_files/payment.js:120-145 | 400 exactly when the gate refuses. A due date the store cannot read, or an id outside `INT`, is then 500 whatever the table holds. An unknown id is 404 otherwise. With a known id, 200 exactly when the store accepts the body. 500 exactly in the two bind-time cases and for a known id with a body the store refuses. Only 200 changes the store: every row with the id gets the stored values and `updated_at = now`, the others and the id counter stay, and the returned row is one of them |
| `PaymentReminders.Complete` | backend_files/payment.js:148-167 | 500 exactly when the id is outside `INT`, which the `SERIAL` column's parameter cannot bind. Otherwise an unknown id gives 404. Neither changes anything. 200 exactly when the id is within `INT` and known. Rows with the id then get status completed and the new `updated_at`, nothing else changes, and the answer is the completion message |
| `PaymentReminders.Delete` | backend_files/payment.js:170-186 | 500 exactly when the id is outside `INT`. Otherwise an unknown id gives 404. Neither changes anything. 200 exactly when the id is within `INT` and known. Exactly the rows without that id then remain, and the answer is the deletion message |
| `PaymentReminders.DueTodayAccepted` | backend_files/payment.js:53-55 | a due date equal to today passes the gate on create and on update, and a body the store accepts is created with 201 while the SERIAL sequence lasts |
| `PaymentReminders.PastDueRejected` | backend_files/payment.js:126-128 | a date `moment` reads as before today gives 400 with "Due date cannot be in the past" and an unchanged store, on create and on update |
| `PaymentReminders.UnreadableDueDateFails` | backend_files/payment.js:130-143 | a due date neither reader understands passes the gate and fails in the store with 500, on update even for an unknown id |
| `PaymentReminders.GateLetsPastDueThrough` | backend_files/payment.js:53-65 | the body `{title: "rent", due_date: "yesterday", priority: "high", status: "pending"}` is created with 201 and a due date before today while the SERIAL sequence lasts, and updates a known id with 200 and a past due date |
| `PaymentReminders.CreateChecked` | backend_files/payment.js:52-55 | with the gate the comment asks for, 400 exactly when the store would keep a day before today, so a created row is never due before today; otherwise the handler as written |
| `PaymentReminders.UpdateChecked` | backend_files/payment.js:125-128 | with the corrected gate, 400 exactly when the store would keep a day before today; otherwise the handler as written |
| `PaymentReminders.CheckedNeverStoresPastDue` | backend_files/payment.js:52-65 | with the corrected gate, no create or update leaves a row due before today. The corrected gate refuses more than the gate as written only for past dates `moment` cannot read |
| `PaymentReminders.CreateKeepsValid` | backend_files/payment.js:25 | create keeps ids unique, between 1 and the next SERIAL value, and the next value at most one past the end of `INT`, with either gate |
| `PaymentReminders.StoredIdsBind` | backend_files/payment.js:25 | every id a valid store holds is within `INT`, so completing or deleting a stored id answers 200 |
| `PaymentReminders.UpdateKeepsValid` | backend_files/payment.js:130-136 | update keeps ids unique and below the next SERIAL value, with either gate |
| `PaymentReminders.CompleteKeepsValid` | backend_files/payment.js:152-158 | complete keeps ids unique and below the next SERIAL value |
| `PaymentReminders.DeleteKeepsValid` | backend_files/payment.js:174-177 | delete keeps ids unique and below the next SERIAL value |
| `PaymentReminders.CompleteTwice` | backend_files/payment.js:152-158 | completing twice is the same as completing once at the later time |
| `PaymentReminders.CompletedAfterComplete` | backend_files/payment.js:153-154 | after a successful complete, every row with the id is completed and has `updated_at = now` |
| `PaymentReminders.DeleteKeepsOthers` | backend_files/payment.js:174-181 | a delete keeps every row without the id exactly as often as before and none with it, so deleting again gives 404 |
| `Transactions.RowsOf` | backend_files/transactions.js:67 | the summary works on exactly the user's rows |
| `Transactions.Summarize` | backend_files/transactions.js:59-77 | the grouped statement has no result row exactly when the user has no rows, instead of a row of zeros; otherwise one summary for that user whose balance is total income minus total expense |
| `Transactions.SumsPickTheirType` | backend_files/transactions.js:62-63 | each CASE-sum (`IncomeSum`, `ExpenseSum`) is 0 over rows of the other type and the plain sum of the amounts over rows of its own type |
| `Transactions.IncomeSumIsIncomeRows` | backend_files/transactions.js:62 | the income CASE-sum over the user's rows equals the sum of amounts over the user's income rows |
| `Transactions.ExpenseSumIsExpenseRows` | backend_files/transactions.js:63 | the expense CASE-sum over the user's rows equals the sum of amounts over the user's expense rows |
| `Transactions.SummaryTotals` | backend_files/transactions.js:62-63 | `total_income` is the sum over the user's income rows and `total_expense` the sum over the user's expense rows |
| `Transactions.EachRowCountedOnce` | backend_files/transactions.js:29 | income total plus expense total is the sum of all amounts, so every row lands in exactly one total |
| `Transactions.IncomeMinusExpenseIsNetFlow` | backend_files/transactions.js:64-65 | income total minus expense total equals the signed sum: plus for income, minus for expense |
| `Transactions.BalanceIsNetFlow` | backend_files/transactions.js:64-65 | the balance is exactly the signed sum of the user's amounts, in cents |
| `Transactions.RowsOfAppend` | backend_files/transactions.js:67 | selecting a user's rows distributes over concatenating tables |
| `Transactions.IncomeSumAppend` | backend_files/transactions.js:62 | the income total of two row lists together is the sum of their totals |
| `Transactions.ExpenseSumAppend` | backend_files/transactions.js:63 | the expense total of two row lists together is the sum of their totals |
| `Transactions.RowsOfNone` | backend_files/transactions.js:67 | a table with no row of the user yields no rows |
| `Transactions.OtherUsersIgnored` | backend_files/transactions.js:67-68 | inserting other users' rows anywhere in the table leaves the summary unchanged |
| `Transactions.MineAppend` | backend_files/transactions.js:62-67 | the user's income and expense totals over two stretches of a table add up |
| `Transactions.TakeOut` | backend_files/transactions.js:66 | taking one row out of a table takes one copy of it out of the table's multiset of rows |
| `Transactions.PermutedTotals` | backend_files/transactions.js:62-67 | two tables holding the same rows, each as often, give the user the same income and expense totals |
| `Transactions.MoveRow` | backend_files/transactions.js:62-67 | moving one row to another place in the table keeps the user's totals |
| `Transactions.SummaryIgnoresOrder` | backend_files/transactions.js:59-69 | any two tables holding the same rows, each as often, in any order, give the same summary, or both give 404 |
| `Transactions.ExampleSummary` | backend_files/transactions.js:59-77 | income 10000, expense 4000 and income 2550 cents for user 7 give income 12550, expense 4000 and balance 8550 |
| `Transactions.RowFor` | backend_files/transactions.js:24-31 | a written row has the given id and exactly the body's values. `user_id` fits `INT`. The category is the body's text as `VARCHAR(50)` stores it. The amount fits `DECIMAL(10, 2)`. The type is one the CHECK admits, and the date is one the store reads. A body whose parameters cannot be bound never gives a row |
| `Transactions.Create` | backend_files/transactions.js:84-100 | 201 exactly when the store accepts the body and the SERIAL sequence has not passed the end of `INT`; the row with the next id is appended. Otherwise 500, and nothing is written |
| `Transactions.Total` | backend_files/transactions.js:54-82 | 500 exactly when the `:user_id` is outside `INT`, before any row is read. Otherwise 404 with "No transactions found for this user." exactly when the user has no rows. 200 exactly when the user is within `INT` and has rows, with the user's summary |
| `Transactions.Update` | backend_files/transactions.js:103-126 | parameters the store cannot bind give 500 whatever the table holds. These are a `user_id` or id outside `INT`, or an unreadable date. Otherwise an unknown id gives 404 with "Transaction not found". With a known id, 200 exactly when the store accepts the body. 500 exactly for a bind failure or a known id with a body the store refuses. Only 200 changes the store: every row with the id gets all the body's columns, and the others stay |
| `Transactions.Delete` | backend_files/transactions.js:129-143 | 500 exactly when the id is outside `INT`. Otherwise an unknown id gives 404. Neither changes anything. 200 exactly when the id is within `INT` and known. Exactly the rows without that id then remain |
| `Transactions.DeleteKeepsOthers` | backend_files/transactions.js:132-136 | a delete keeps every row without the id exactly as often as before and none with it, so deleting again gives 404 |
| `Transactions.LongCategoryRefused` | backend_files/transactions.js:27 | a category of more than 50 characters, not ending in spaces only, gives 500 on create, and 404 on update of an unknown id |
| `Transactions.CreateIncomeRaisesBalance` | backend_files/transactions.js:62-65 | recording an income raises that user's income total and balance by its amount and leaves the expense total as it was; a user's first row creates the summary |
| `Transactions.DeleteLastRowRemovesSummary` | backend_files/transactions.js:73-75 | deleting by an id that all of a user's rows carry leaves no summary, and GET /transtotal for that user (within `INT`) answers 404 again |
| `Users.FirstByEmail` | backend_files/Signup.js:124-135 | the row the login compares is the first user with the email, and there is none exactly when no user has it |
| `Users.Login` | backend_files/Signup.js:114-150 | 400 exactly when email or password is missing or empty. A welcome names a user whose email and password both match. A 401 means every user with the email has a different password, or an earlier user with that email does |
| `Users.MissingFieldDecidedFirst` | backend_files/Signup.js:119-121 | a missing or empty email or password gives 400 whatever the table holds |
| `Users.UnknownEmailRejected` | backend_files/Signup.js:129-132 | an email no user has gives 401 |
| `Users.UnknownEmailLooksLikeWrongPassword` | backend_files/Signup.js:139-142 | an unknown email and a wrong password give the same answer: status 401 and "Invalid username or password." |
| `Users.FirstMatchWelcomed` | backend_files/Signup.js:135-145 | equal passwords on the first user with the email give 200 and "Welcome, <username>!" for that user |
| `Users.FirstMatchDecides` | backend_files/Signup.js:135-142 | only the first user with the email is compared; a later user with that email and the right password does not help |
| `Users.GetUser` | backend_files/Signup.js:63-76 | 404 exactly when no row has the id; otherwise a row with that id |
| `Users.UpdateUser` | backend_files/Signup.js:79-96 | an unknown id gives 404 and changes nothing. Otherwise, rows with the id get the new name and email, other rows stay, and a row with the new values is returned |
| `Users.DeleteUser` | backend_files/Signup.js:99-112 | an unknown id gives 404 and changes nothing. Otherwise, exactly the rows without the id remain |
| `Users.DeleteKeepsOthers` | backend_files/Signup.js:102-107 | a delete keeps every user without the id exactly as often as before and none with it, so deleting again gives 404 |
| `Users.ByIdHandlersAgree` | backend_files/Signup.js:67-71 | GET, PUT and DELETE answer 404 for the same ids |
| `Users.DeletedUserCannotLogIn` | backend_files/Signup.js:102-107 | once the only user with an email is deleted, logging in with that email no longer succeeds |

## Findings

| source | as written | input that shows it | evidently intended | confidence | as-written member | corrected member |
|---|---|---|---|---|---|---|
| backend_files/payment.js:53 and backend_files/payment.js:126 | `moment(due_date).isBefore(moment(), 'day')` is false for a date text `moment` cannot read. The row is then written with whatever day the store reads | `due_date: "yesterday"` on POST or PUT of a known id: 201 or 200, and the stored due date is before today | every due date the store would keep as a day before today is refused with 400, as the comment "Validate that the due_date is in the future" says | high that the gap exists, medium on the store's reading of "yesterday"; not executed | `PaymentReminders.GateLetsPastDueThrough` | `PaymentReminders.CheckedNeverStoresPastDue` |

## Left out

- HTTP and process plumbing is not modelled: Express setup, `express.json`, `body-parser`, `cors`, `app.listen`, `async`/`await`, pg `Client`/`Pool` construction and `connect`, `process.exit`, console logging and the `CREATE TABLE` statements. These do I/O and decide nothing. The table constraints are modelled where the handlers write rows: NOT NULL, the CHECK enumerations, `VARCHAR` lengths, `INT` and `DECIMAL(10, 2)` ranges, and `DATE` readings.
- `ReminderQuery.Selected`: the statement is not executed against reminder rows. Rows are seen as the text of their three filterable columns. The store's conversion of a text parameter to `DATE` is not modelled, and neither is the error for a value that does not convert.
- The order of the rows `GET /payment-reminders` returns is not modelled. Which rows it returns, and how often, is modelled by `ReminderQuery.Selected` in table order; of the ORDER BY only the choice of clause is modelled. With `ORDER BY priority ASC` the store sorts the priority names as text ("high" < "low" < "medium"), not by severity; the model does not capture this.
- The `moment` library is not used. Due dates are day numbers and "today" is a parameter, so time zones and the wall clock are left out.
  - A due date is modelled as one of four cases: absent, read by both, read only by the store, or read by neither.
  - Text that `moment` reads but the store's `DATE` input refuses is not modelled. An ISO week date such as `2026-W41-6` may be one. Such text gives 400 when `moment` reads it as a past day; otherwise it fails with 500 when the statement is bound.
  - A date text that `moment` and the store read as different days is not modelled. An example is a timestamp with an offset close to midnight.
  - The store's `infinity` and `-infinity` dates are not day numbers and are not modelled.
- An absent or unreadable due date, and a date only the store reads, passes the gate. `moment` then gives "now" or an invalid moment, and neither is before today. The model follows the code; see "## Findings".
- 500 answers that do not follow from the request are not modelled: a lost connection, a failed query plan, a full disk.
- Text containing the character U+0000 is not modelled. PostgreSQL refuses it while binding any text parameter, so the source answers 500 before any row is matched. This holds for a title, category, email or password, and for a query filter. The model treats such text like any other. For example, it answers 404 to an update of an unknown id with such a title, and 401 to such a login email.
- A path `:id` or `:user_id` is an integer. Text that is not a whole number, which the store refuses with 500, is not modelled. An integer outside `INT` is modelled, as a 500.
  - The type of the `users` table's id is not part of the source, so an out-of-range `/users/:id` is not modelled.
- Request fields whose JSON type the model does not give them are not modelled, such as a number where text is expected, or an object. A field is absent or has its modelled type.
  - A transaction amount given with more than two decimals, which `DECIMAL(10, 2)` rounds, is not modelled: amounts are whole cents.
  - A `user_id` that is not a whole number is not modelled.
- A SERIAL value that a failed insert consumes is not modelled. The counter advances only on successful creates.
- Where several rows qualify, `rows[0]` is modelled as the first in table order. PostgreSQL leaves that order unspecified without `ORDER BY`.
- `POST /users`, `GET /users`, `GET /transactions` and all of `backend_files/appcopy.js` are plain single statements with no decision logic. They are not modelled.
- The DDL of the `users` table is not part of the source. The model uses the columns the handlers name: id, email, username, password and name. Email and name may be NULL, because the update handler writes whatever the body holds.
- Concurrency between requests and the store's isolation are not modelled. Each handler is one atomic step on the store.

=== FILE: payment_reminders.dfy ===
/** The write side of the payment-reminder service (backend_files/payment.js):
    create and update with the due-date gate, mark as completed, delete.  The
    `payment_reminders` table is a sequence of rows together with the next value
    of its SERIAL id; the current day and CURRENT_TIMESTAMP are parameters. */
module PaymentReminders {
  import opened Wrappers
  import opened StoreTypes
  import Tables

  /** A calendar day as a day number: due dates are compared at day granularity. */
  type Day = int

  /** A value of CURRENT_TIMESTAMP, for created_at and updated_at. */
  type Timestamp = int

  /** The values the CHECK constraints on `priority` and `status` admit. */
  datatype Priority = Low | Medium | High
  datatype Status = Pending | Completed

  datatype Reminder = Reminder(
    id: int,
    title: string,
    dueDate: Day,
    priority: Priority,
    status: Status,
    createdAt: Timestamp,
    updatedAt: Timestamp)

  /** The `due_date` field of a request body, as the two readers of it see it: the
      gate reads it with `moment`, the store reads the same text as a `DATE`. */
  datatype DueInput =
      /** The field is absent or null: `moment` makes "now" or an invalid moment,
          and the store receives NULL. */
    | Absent
      /** A date `moment` reads, and the store reads as the same day. */
    | Parsed(day: Day)
      /** Text `moment` cannot read but the store reads as a date, such as
          'yesterday', 'today' or 'epoch'. */
    | StoreOnly(day: Day)
      /** Text neither reads. */
    | Unreadable

  /** What the store makes of the `due_date` parameter. */
  function StoreReading(due: DueInput): DateParam
  {
    match due
    case Absent => NullDate
    case Parsed(d) => ReadsAs(d)
    case StoreOnly(d) => ReadsAs(d)
    case Unreadable => NotADate
  }

  /** A request body.  A priority or status is None when the field is absent or holds
      a value the CHECK constraint refuses: the store rejects both. */
  datatype ReminderInput = ReminderInput(
    title: Option<string>,
    dueDate: DueInput,
    priority: Option<Priority>,
    status: Option<Status>)

  /** The column values a body writes. */
  datatype Fields = Fields(title: string, dueDate: Day, priority: Priority, status: Status)

  /** The values the store writes for a body, or None when it refuses them: a NULL in
      a NOT NULL column, a due date it cannot read, or a title longer than
      `VARCHAR(255)` holds. */
  function Written(input: ReminderInput): Option<Fields>
  {
    if input.title.Some? && Varchar(input.title.value, 255).Some?
       && StoreReading(input.dueDate).ReadsAs? && input.priority.Some? && input.status.Some?
    then Some(Fields(Varchar(input.title.value, 255).value, StoreReading(input.dueDate).day,
                     input.priority.value, input.status.value))
    else None
  }

  datatype Store = Store(rows: seq<Reminder>, nextId: int)

  /** The handlers' answers. */
  datatype Reply =
    | Created(row: Reminder)
    | Updated(row: Reminder)
    | Message(text: string)
    | BadRequest(error: string)
    | NotFound(error: string)
    | Failed(error: string)
  {
    /** The HTTP status the handler sends with the answer. */
    function Code(): int
    {
      match this
      case Created(_) => 201
      case Updated(_) => 200
      case Message(_) => 200
      case BadRequest(_) => 400
      case NotFound(_) => 404
      case Failed(_) => 500
    }
  }

  datatype Outcome = Outcome(reply: Reply, store: Store)

  const PastDueError := "Due date cannot be in the past"
  const NotFoundError := "Payment reminder not found"
  const CompletedMessage := "Payment reminder marked as completed"
  const DeletedMessage := "Payment reminder deleted successfully"
  const CreateFailed := "Failed to create payment reminder"
  const UpdateFailed := "Failed to update payment reminder"
  const CompleteFailed := "Failed to mark payment reminder as completed"
  const DeleteFailed := "Failed to delete payment reminder"

  /** The due day the store keeps is before today. */
  predicate StoredBefore(due: DueInput, today: Day)
  {
    StoreReading(due).ReadsAs? && StoreReading(due).day < today
  }

  /** `moment(due_date).isBefore(moment(), 'day')`, the gate both write handlers run.
      It refuses only what the store would also keep as a past day, but it lets
      through every past date `moment` cannot read. */
  predicate MomentSaysPast(due: DueInput, today: Day): (b: bool)
    ensures b ==> StoredBefore(due, today)
    ensures !due.Parsed? ==> !b
  {
    due.Parsed? && due.day < today
  }

  /** The store's invariant: ids are unique (PRIMARY KEY), and lie between the
      SERIAL column's first value 1 and the next value, which never passes the end
      of the `INT` range by more than one. */
  predicate Valid(s: Store)
  {
    Tables.Distinct(s.rows, (r: Reminder) => r.id)
    && 1 <= s.nextId <= MaxInt4 + 1
    && forall i :: 0 <= i < |s.rows| ==> 1 <= s.rows[i].id < s.nextId
  }

  /** `WHERE id = $k`. */
  function IdIs(id: int): Reminder -> bool
  {
    (x: Reminder) => x.id == id
  }

  /** The row a create writes. */
  function NewRow(id: int, f: Fields, now: Timestamp): Reminder
  {
    Reminder(id, f.title, f.dueDate, f.priority, f.status, now, now)
  }

  /** The row written by the update handler's SET list. */
  function Revised(r: Reminder, f: Fields, now: Timestamp): Reminder
  {
    r.(title := f.title, dueDate := f.dueDate, priority := f.priority, status := f.status, updatedAt := now)
  }

  /** The row written by the complete handler's SET list. */
  function MarkedCompleted(r: Reminder, now: Timestamp): Reminder
  {
    r.(status := Completed, updatedAt := now)
  }

  /** POST /payment-reminders.  The gate runs first; then the store writes the row
      or refuses it.  The SERIAL column draws its id from an `INT` sequence, which
      fails once it is past `MaxInt4`. */
  function Create(s: Store, input: ReminderInput, today: Day, now: Timestamp): (r: Outcome)
    ensures r.reply.Code() == 400 <==> MomentSaysPast(input.dueDate, today)
    ensures r.reply.Code() == 400 ==> r.reply.error == PastDueError
    ensures r.reply.Code() == 201 <==>
      !MomentSaysPast(input.dueDate, today) && Written(input).Some? && s.nextId <= MaxInt4
    ensures r.reply.Code() == 201 ==>
      r.reply.row == NewRow(s.nextId, Written(input).value, now)
      && r.store == Store(s.rows + [r.reply.row], s.nextId + 1)
    ensures r.reply.Code() == 500 <==>
      !MomentSaysPast(input.dueDate, today) && (Written(input).None? || s.nextId > MaxInt4)
    ensures r.reply.Code() == 500 ==> r.reply.error == CreateFailed
    ensures r.reply.Code() != 201 ==> r.store == s
  {
    if MomentSaysPast(input.dueDate, today) then
      Outcome(BadRequest(PastDueError), s)
    else match Written(input)
      case None => Outcome(Failed(CreateFailed), s)
      case Some(f) =>
        if s.nextId > MaxInt4 then Outcome(Failed(CreateFailed), s)
        else
          var row := NewRow(s.nextId, f, now);
          Outcome(Created(row), Store(s.rows + [row], s.nextId + 1))
  }

  /** PUT /payment-reminders/:id.  The gate runs before the store is asked.  A due
      date the store cannot read, or an id outside the `INT` range of the SERIAL
      column, fails while the statement is bound, before any row is matched; a value
      a column refuses fails only when a row is written, so an unknown id is a 404
      first.  Every row with the id is rewritten and the first is returned. */
  function Update(s: Store, id: int, input: ReminderInput, today: Day, now: Timestamp): (r: Outcome)
    ensures r.reply.Code() == 400 <==> MomentSaysPast(input.dueDate, today)
    ensures r.reply.Code() == 400 ==> r.reply.error == PastDueError
    ensures r.reply.Code() == 404 <==>
      !MomentSaysPast(input.dueDate, today) && !input.dueDate.Unreadable? && IsInt4(id)
      && !Tables.AnyWhere(s.rows, IdIs(id))
    ensures r.reply.Code() == 404 ==> r.reply.error == NotFoundError
    ensures r.reply.Code() == 200 <==>
      !MomentSaysPast(input.dueDate, today) && IsInt4(id) && Tables.AnyWhere(s.rows, IdIs(id))
      && Written(input).Some?
    ensures !MomentSaysPast(input.dueDate, today) && !IsInt4(id) ==> r == Outcome(Failed(UpdateFailed), s)
    ensures r.reply.Code() == 500 <==>
      !MomentSaysPast(input.dueDate, today)
      && (input.dueDate.Unreadable? || !IsInt4(id) || (Tables.AnyWhere(s.rows, IdIs(id)) && Written(input).None?))
    ensures r.reply.Code() == 500 ==> r.reply.error == UpdateFailed
    ensures r.reply.Code() != 200 ==> r.store == s
    ensures r.reply.Code() == 200 ==>
      r.reply.Updated? && r.store.nextId == s.nextId && |r.store.rows| == |s.rows|
      && (forall i :: 0 <= i < |s.rows| ==>
            r.store.rows[i] == if s.rows[i].id == id then Revised(s.rows[i], Written(input).value, now) else s.rows[i])
      && r.reply.row in r.store.rows
      && r.reply.row == Revised(r.reply.row, Written(input).value, now) && r.reply.row.id == id
  {
    if MomentSaysPast(input.dueDate, today) then
      Outcome(BadRequest(PastDueError), s)
    else if input.dueDate.Unreadable? || !IsInt4(id) then
      Outcome(Failed(UpdateFailed), s)
    else match Tables.FirstWhere(s.rows, IdIs(id))
      case None => Outcome(NotFound(NotFoundError), s)
      case Some(i) =>
        match Written(input)
        case None => Outcome(Failed(UpdateFailed), s)
        case Some(f) =>
          var rows := Tables.UpdateWhere(s.rows, IdIs(id), (x: Reminder) => Revised(x, f, now));
          Outcome(Updated(rows[i]), Store(rows, s.nextId))
  }

  /** PATCH /payment-reminders/:id/complete: status and updated_at change, nothing
      else.  An id outside `INT` fails while the statement is bound. */
  function Complete(s: Store, id: int, now: Timestamp): (r: Outcome)
    ensures r.reply.Code() == 500 <==> !IsInt4(id)
    ensures r.reply.Code() == 500 ==> r.reply.error == CompleteFailed && r.store == s
    ensures r.reply.Code() == 404 <==> IsInt4(id) && !Tables.AnyWhere(s.rows, IdIs(id))
    ensures r.reply.Code() == 404 ==> r.reply.error == NotFoundError && r.store == s
    ensures r.reply.Code() == 200 <==> IsInt4(id) && Tables.AnyWhere(s.rows, IdIs(id))
    ensures r.reply.Code() == 200 ==>
      r.reply == Message(CompletedMessage) && r.store.nextId == s.nextId && |r.store.rows| == |s.rows|
      && forall i :: 0 <= i < |s.rows| ==>
           r.store.rows[i] == if s.rows[i].id == id then MarkedCompleted(s.rows[i], now) else s.rows[i]
  {
    if !IsInt4(id) then
      Outcome(Failed(CompleteFailed), s)
    else if !Tables.AnyWhere(s.rows, IdIs(id)) then
      Outcome(NotFound(NotFoundError), s)
    else
      Outcome(Message(CompletedMessage),
              Store(Tables.UpdateWhere(s.rows, IdIs(id), (x: Reminder) => MarkedCompleted(x, now)), s.nextId))
  }

  /** DELETE /payment-reminders/:id.  An id outside `INT` fails while the statement
      is bound. */
  function Delete(s: Store, id: int): (r: Outcome)
    ensures r.reply.Code() == 500 <==> !IsInt4(id)
    ensures r.reply.Code() == 500 ==> r.reply.error == DeleteFailed && r.store == s
    ensures r.reply.Code() == 404 <==> IsInt4(id) && !Tables.AnyWhere(s.rows, IdIs(id))
    ensures r.reply.Code() == 404 ==> r.reply.error == NotFoundError && r.store == s
    ensures r.reply.Code() == 200 <==> IsInt4(id) && Tables.AnyWhere(s.rows, IdIs(id))
    ensures r.reply.Code() == 200 ==>
      r.reply == Message(DeletedMessage) && r.store.nextId == s.nextId
      && (forall x :: x in r.store.rows <==> x in s.rows && x.id != id)
  {
    if !IsInt4(id) then
      Outcome(Failed(DeleteFailed), s)
    else if !Tables.AnyWhere(s.rows, IdIs(id)) then
      Outcome(NotFound(NotFoundError), s)
    else
      Outcome(Message(DeletedMessage), Store(Tables.DeleteWhere(s.rows, IdIs(id)), s.nextId))
  }

  // ---- The due-date gate on both write paths ----

  /** A due date equal to today passes the gate on create and on update, and a body
      the store accepts is created. */
  lemma DueTodayAccepted(s: Store, id: int, input: ReminderInput, today: Day, now: Timestamp)
    requires input.dueDate == Parsed(today)
    ensures Create(s, input, today, now).reply.Code() != 400
    ensures Update(s, id, input, today, now).reply.Code() != 400
    ensures Written(input).Some? && s.nextId <= MaxInt4 ==> Create(s, input, today, now).reply.Code() == 201
  {
  }

  /** A date `moment` reads as before today is refused with 400 on both paths, and
      nothing is written. */
  lemma PastDueRejected(s: Store, id: int, input: ReminderInput, today: Day, now: Timestamp)
    requires input.dueDate.Parsed? && input.dueDate.day < today
    ensures Create(s, input, today, now) == Outcome(BadRequest(PastDueError), s)
    ensures Update(s, id, input, today, now) == Outcome(BadRequest(PastDueError), s)
  {
  }

  /** A due date neither reader understands passes the gate and fails in the store
      with 500, on update even when no row has the id. */
  lemma UnreadableDueDateFails(s: Store, id: int, input: ReminderInput, today: Day, now: Timestamp)
    requires input.dueDate == Unreadable
    ensures Create(s, input, today, now) == Outcome(Failed(CreateFailed), s)
    ensures Update(s, id, input, today, now) == Outcome(Failed(UpdateFailed), s)
  {
  }

  /** The gate as written lets a past due date into the table: 'yesterday' is not a
      date `moment` reads, so `isBefore` is false, and the store reads it as the day
      before today. */
  lemma GateLetsPastDueThrough(s: Store, id: int, today: Day, now: Timestamp)
    ensures var input := ReminderInput(Some("rent"), StoreOnly(today - 1), Some(High), Some(Pending));
      var created := Create(s, input, today, now);
      s.nextId <= MaxInt4 ==> created.reply.Code() == 201 && created.reply.row.dueDate < today
    ensures var input := ReminderInput(Some("rent"), StoreOnly(today - 1), Some(High), Some(Pending));
      IsInt4(id) && Tables.AnyWhere(s.rows, IdIs(id)) ==>
        Update(s, id, input, today, now).reply.Code() == 200
        && Update(s, id, input, today, now).reply.row.dueDate < today
  {
    var input := ReminderInput(Some("rent"), StoreOnly(today - 1), Some(High), Some(Pending));
    assert Written(input) == Some(Fields("rent", today - 1, High, Pending));
  }

  // ---- The gate the comment above it asks for ----

  /** POST with the gate refusing every due date the store would keep as a day
      before today; otherwise the handler as written. */
  function CreateChecked(s: Store, input: ReminderInput, today: Day, now: Timestamp): (r: Outcome)
    ensures r.reply.Code() == 400 <==> StoredBefore(input.dueDate, today)
    ensures r.reply.Code() == 400 ==> r == Outcome(BadRequest(PastDueError), s)
    ensures r.reply.Code() == 201 ==> r.reply.row.dueDate >= today
    ensures r.reply.Code() != 400 ==> r == Create(s, input, today, now)
  {
    if StoredBefore(input.dueDate, today) then Outcome(BadRequest(PastDueError), s)
    else Create(s, input, today, now)
  }

  /** PUT with the corrected gate. */
  function UpdateChecked(s: Store, id: int, input: ReminderInput, today: Day, now: Timestamp): (r: Outcome)
    ensures r.reply.Code() == 400 <==> StoredBefore(input.dueDate, today)
    ensures r.reply.Code() == 400 ==> r == Outcome(BadRequest(PastDueError), s)
    ensures r.reply.Code() != 400 ==> r == Update(s, id, input, today, now)
  {
    if StoredBefore(input.dueDate, today) then Outcome(BadRequest(PastDueError), s)
    else Update(s, id, input, today, now)
  }

  /** With the corrected gate no write leaves a row with the id due before today,
      and no accepted due date is refused that the gate as written accepts unless the
      store would keep it as a past day. */
  lemma CheckedNeverStoresPastDue(s: Store, id: int, input: ReminderInput, today: Day, now: Timestamp)
    ensures CreateChecked(s, input, today, now).reply.Code() == 201 ==>
      CreateChecked(s, input, today, now).reply.row.dueDate >= today
    ensures UpdateChecked(s, id, input, today, now).reply.Code() == 200 ==>
      forall x :: x in UpdateChecked(s, id, input, today, now).store.rows && x.id == id ==> x.dueDate >= today
    ensures CreateChecked(s, input, today, now).reply.Code() == 400 && !MomentSaysPast(input.dueDate, today) ==>
      input.dueDate.StoreOnly? && input.dueDate.day < today
  {
    var r := UpdateChecked(s, id, input, today, now);
    if r.reply.Code() == 200 {
      var f := Written(input).value;
      assert f.dueDate == StoreReading(input.dueDate).day;
      forall x | x in r.store.rows && x.id == id ensures x.dueDate >= today {
        var i :| 0 <= i < |r.store.rows| && r.store.rows[i] == x;
      }
    }
  }

  // ---- The store invariant ----

  lemma CreateKeepsValid(s: Store, input: ReminderInput, today: Day, now: Timestamp)
    requires Valid(s)
    ensures Valid(Create(s, input, today, now).store)
    ensures Valid(CreateChecked(s, input, today, now).store)
  {
  }

  lemma UpdateKeepsValid(s: Store, id: int, input: ReminderInput, today: Day, now: Timestamp)
    requires Valid(s)
    ensures Valid(Update(s, id, input, today, now).store)
    ensures Valid(UpdateChecked(s, id, input, today, now).store)
  {
    var r := Update(s, id, input, today, now);
    if r.reply.Code() == 200 {
      var f := Written(input).value;
      Tables.UpdateWhereKeepsDistinct(s.rows, IdIs(id), (x: Reminder) => Revised(x, f, now), (r: Reminder) => r.id);
    }
  }

  lemma CompleteKeepsValid(s: Store, id: int, now: Timestamp)
    requires Valid(s)
    ensures Valid(Complete(s, id, now).store)
  {
    Tables.UpdateWhereKeepsDistinct(s.rows, IdIs(id), (x: Reminder) => MarkedCompleted(x, now), (r: Reminder) => r.id);
  }

  lemma DeleteKeepsValid(s: Store, id: int)
    requires Valid(s)
    ensures Valid(Delete(s, id).store)
  {
    Tables.DeleteWhereKeepsDistinct(s.rows, IdIs(id), (r: Reminder) => r.id);
    var r := Delete(s, id);
    forall i | 0 <= i < |r.store.rows| ensures r.store.rows[i].id < r.store.nextId {
      assert r.store.rows[i] in s.rows;
    }
  }

  /** Every id a valid store holds is within `INT`, so the bind-time 500 never hits
      a stored id: completing or deleting it succeeds. */
  lemma StoredIdsBind(s: Store, id: int, now: Timestamp)
    requires Valid(s) && Tables.AnyWhere(s.rows, IdIs(id))
    ensures IsInt4(id)
    ensures Complete(s, id, now).reply.Code() == 200
    ensures Delete(s, id).reply.Code() == 200
  {
    var i :| 0 <= i < |s.rows| && s.rows[i].id == id;
  }

  // ---- Completing ----

  /** Completing twice is completing once, at the later time. */
  lemma CompleteTwice(s: Store, id: int, t1: Timestamp, t2: Timestamp)
    ensures Complete(Complete(s, id, t1).store, id, t2) == Complete(s, id, t2)
  {
    var once := Complete(s, id, t1);
    if IsInt4(id) && Tables.AnyWhere(s.rows, IdIs(id)) {
      var i :| 0 <= i < |s.rows| && s.rows[i].id == id;
      assert once.store.rows[i].id == id;
      assert Complete(once.store, id, t2).store.rows == Complete(s, id, t2).store.rows;
    }
  }

  /** After a successful complete, every row with the id is completed; a store with
      unique ids has exactly one such row. */
  lemma CompletedAfterComplete(s: Store, id: int, now: Timestamp)
    requires IsInt4(id) && Tables.AnyWhere(s.rows, IdIs(id))
    ensures forall x :: x in Complete(s, id, now).store.rows && x.id == id ==> x.status == Completed && x.updatedAt == now
  {
    var rows := Complete(s, id, now).store.rows;
    forall x | x in rows && x.id == id ensures x.status == Completed && x.updatedAt == now {
      var i :| 0 <= i < |rows| && rows[i] == x;
    }
  }

  // ---- Deleting ----

  /** A delete keeps every other row as often as it was there, in its order, and a
      second delete of the same id is a 404. */
  lemma DeleteKeepsOthers(s: Store, id: int, x: Reminder)
    requires IsInt4(id) && Tables.AnyWhere(s.rows, IdIs(id))
    ensures multiset(Delete(s, id).store.rows)[x] == if x.id == id then 0 else multiset(s.rows)[x]
    ensures !Tables.AnyWhere(Delete(s, id).store.rows, IdIs(id))
    ensures Delete(Delete(s, id).store, id).reply.Code() == 404
  {
    Tables.DeleteWhereCounts(s.rows, IdIs(id), x);
  }
}

=== FILE: reminder_query.dfy ===
/** The filter and sort builder of `GET /payment-reminders` (backend_files/payment.js).
    The handler turns up to three optional query fields into `WHERE` clauses with
    numbered placeholders, collects the field values in a separate list that is
    bound to those placeholders, and picks one of two `ORDER BY` clauses. */
module ReminderQuery {
  import opened Wrappers
  import opened SqlText
  import Tables

  /** The three filterable columns of `payment_reminders`. */
  datatype Column = DueDateColumn | StatusColumn | PriorityColumn

  /** Position of a column in the order the handler tests the fields. */
  function Rank(c: Column): nat
  {
    match c
    case DueDateColumn => 0
    case StatusColumn => 1
    case PriorityColumn => 2
  }

  /** The request's query string; a field the URL does not carry is None. */
  datatype QueryParams = QueryParams(
    dueDate: Option<string>,
    status: Option<string>,
    priority: Option<string>,
    sortBy: Option<string>)

  /** JavaScript truthiness of a query field: present and not the empty string. */
  predicate Truthy(v: Option<string>)
  {
    v.Some? && v.value != ""
  }

  /** The query field that filters on column `c`. */
  function Arg(q: QueryParams, c: Column): Option<string>
  {
    match c
    case DueDateColumn => q.dueDate
    case StatusColumn => q.status
    case PriorityColumn => q.priority
  }

  /** The columns that get a clause: exactly the truthy fields, in the fixed order
      due_date, status, priority. */
  function Present(q: QueryParams): (cols: seq<Column>)
    ensures forall c :: c in cols <==> Truthy(Arg(q, c))
    ensures forall i, j :: 0 <= i < j < |cols| ==> Rank(cols[i]) < Rank(cols[j])
  {
    (if Truthy(q.dueDate) then [DueDateColumn] else [])
    + (if Truthy(q.status) then [StatusColumn] else [])
    + (if Truthy(q.priority) then [PriorityColumn] else [])
  }

  /** The text in front of a clause's placeholder number: the column's name and ` = $`. */
  function ClausePrefix(c: Column): string
  {
    match c
    case DueDateColumn => "due_date = $"
    case StatusColumn => "status = $"
    case PriorityColumn => "priority = $"
  }

  /** The clause comparing column `c` with placeholder number `k`. */
  function Clause(c: Column, k: nat): string
  {
    ClausePrefix(c) + NatToString(k)
  }

  /** `filters` once the three tests have run: the clause at position i binds $(i+1). */
  function Filters(q: QueryParams): (r: seq<string>)
  {
    ClausesFor(Present(q))
  }

  /** The clauses for columns `cols`, numbered from 1 in list order. */
  function ClausesFor(cols: seq<Column>): (r: seq<string>)
  {
    seq(|cols|, i requires 0 <= i < |cols| => Clause(cols[i], i + 1))
  }

  /** `filterValues` once the three tests have run: the value of each filtered field,
      in clause order. */
  function FilterValues(q: QueryParams): (r: seq<string>)
  {
    ValuesFor(q, Present(q))
  }

  /** The values of the fields for columns `cols`, in list order. */
  function ValuesFor(q: QueryParams, cols: seq<Column>): (r: seq<string>)
    requires forall c :: c in cols ==> Arg(q, c).Some?
  {
    seq(|cols|, i requires 0 <= i < |cols| => Arg(q, cols[i]).value)
  }

  /** `filterQuery`: empty without filters, else `WHERE` and the clauses joined by `AND`. */
  function FilterQuery(q: QueryParams): (r: string)
    ensures r == "" <==> !Truthy(q.dueDate) && !Truthy(q.status) && !Truthy(q.priority)
    ensures r != "" ==> "WHERE " + Filters(q)[0] <= r
  {
    var fs := Filters(q);
    if |fs| > 0 then "WHERE " + Join(fs, " AND ") else ""
  }

  /** `sort_by && sort_by === 'priority'`. */
  predicate SortsByPriority(q: QueryParams)
  {
    Truthy(q.sortBy) && q.sortBy.value == "priority"
  }

  const ByDueDate := "ORDER BY due_date ASC"
  const ByPriority := "ORDER BY priority ASC"

  /** `orderQuery`: priority order exactly when `sort_by` is the string "priority";
      every other value, and no value, orders by due date. */
  function OrderQuery(q: QueryParams): (r: string)
    ensures r == ByPriority <==> q.sortBy == Some("priority")
    ensures r == ByDueDate <==> q.sortBy != Some("priority")
  {
    if SortsByPriority(q) then ByPriority else ByDueDate
  }

  /** The statement text handed to the store together with `FilterValues(q)`: the
      select, then the WHERE part, then the order clause, separated by spaces. */
  function Statement(q: QueryParams): (r: string)
  {
    "SELECT * FROM payment_reminders " + FilterQuery(q) + " " + OrderQuery(q)
  }

  /** The GET handler's query construction, step by step as the service does it:
      each truthy field pushes its clause, numbered by the current length of
      `filters`, and its value. */
  method BuildQuery(q: QueryParams) returns (text: string, values: seq<string>)
    ensures text == Statement(q)
    ensures values == FilterValues(q)
  {
    var filters: seq<string> := [];
    var filterValues: seq<string> := [];
    ghost var cols: seq<Column> := [];

    if Truthy(q.dueDate) {
      PushOne(q, cols, DueDateColumn);
      filters := filters + ["due_date = $" + NatToString(|filters| + 1)];
      filterValues := filterValues + [q.dueDate.value];
      cols := cols + [DueDateColumn];
    }
    assert filters == ClausesFor(cols) && filterValues == ValuesFor(q, cols);
    if Truthy(q.status) {
      PushOne(q, cols, StatusColumn);
      filters := filters + ["status = $" + NatToString(|filters| + 1)];
      filterValues := filterValues + [q.status.value];
      cols := cols + [StatusColumn];
    }
    assert filters == ClausesFor(cols) && filterValues == ValuesFor(q, cols);
    if Truthy(q.priority) {
      PushOne(q, cols, PriorityColumn);
      filters := filters + ["priority = $" + NatToString(|filters| + 1)];
      filterValues := filterValues + [q.priority.value];
      cols := cols + [PriorityColumn];
    }
    assert cols == Present(q);

    var filterQuery := "";
    if |filters| > 0 {
      filterQuery := "WHERE " + Join(filters, " AND ");
    }

    var orderQuery := ByDueDate;
    if Truthy(q.sortBy) && q.sortBy.value == "priority" {
      orderQuery := ByPriority;
    }

    text := "SELECT * FROM payment_reminders " + filterQuery + " " + orderQuery;
    values := filterValues;
  }

  /** Pushing the clause and value of one more truthy field extends the lists for
      `cols` to the lists for `cols + [c]`. */
  lemma PushOne(q: QueryParams, cols: seq<Column>, c: Column)
    requires forall d :: d in cols ==> Arg(q, d).Some?
    requires Truthy(Arg(q, c))
    ensures ClausesFor(cols + [c]) == ClausesFor(cols) + [ClausePrefix(c) + NatToString(|ClausesFor(cols)| + 1)]
    ensures ValuesFor(q, cols + [c]) == ValuesFor(q, cols) + [Arg(q, c).value]
  {
    var cols' := cols + [c];
    assert forall i :: 0 <= i < |cols| ==> cols'[i] == cols[i];
  }

  /** Reads a clause back into its column and placeholder number. */
  function ParseClause(s: string): Option<(Column, nat)>
  {
    if ClausePrefix(DueDateColumn) <= s then PlaceholderAfter(DueDateColumn, s)
    else if ClausePrefix(StatusColumn) <= s then PlaceholderAfter(StatusColumn, s)
    else if ClausePrefix(PriorityColumn) <= s then PlaceholderAfter(PriorityColumn, s)
    else None
  }

  function PlaceholderAfter(c: Column, s: string): Option<(Column, nat)>
    requires ClausePrefix(c) <= s
  {
    match ParseNat(s[|ClausePrefix(c)|..])
    case None => None
    case Some(k) => Some((c, k))
  }

  /** A clause names its column and its placeholder and nothing else. */
  lemma ParseClauseOfClause(c: Column, k: nat)
    ensures ParseClause(Clause(c, k)) == Some((c, k))
  {
    var s := Clause(c, k);
    assert s[|ClausePrefix(c)|..] == NatToString(k);
    ParseNatOfNatToString(k);
    match c
    case DueDateColumn =>
    case StatusColumn =>
      assert s[0] == 's';
    case PriorityColumn =>
      assert s[0] == 'p';
  }

  /** The k-th clause binds placeholder $k, and the k-th bound value is the value of
      that clause's field: placeholders and values line up, one for one. */
  lemma PlaceholdersLineUp(q: QueryParams)
    ensures |Filters(q)| == |FilterValues(q)| == |Present(q)|
    ensures forall i :: 0 <= i < |Present(q)| ==>
      ParseClause(Filters(q)[i]) == Some((Present(q)[i], i + 1))
      && Arg(q, Present(q)[i]) == Some(FilterValues(q)[i])
  {
    var cols := Present(q);
    forall i | 0 <= i < |cols| ensures ParseClause(Filters(q)[i]) == Some((cols[i], i + 1)) {
      ParseClauseOfClause(cols[i], i + 1);
    }
  }

  /** With no truthy filter field the statement has no WHERE part and binds no value. */
  lemma NoFiltersNoWhere(q: QueryParams)
    requires !Truthy(q.dueDate) && !Truthy(q.status) && !Truthy(q.priority)
    ensures FilterQuery(q) == "" && FilterValues(q) == []
    ensures Statement(q) == "SELECT * FROM payment_reminders  " + OrderQuery(q)
  {
  }

  /** Any truthy filter field gives a WHERE part: `WHERE ` and the clauses joined by ` AND `. */
  lemma SomeFilterGivesWhere(q: QueryParams)
    requires Truthy(q.dueDate) || Truthy(q.status) || Truthy(q.priority)
    ensures FilterQuery(q) == "WHERE " + Join(Filters(q), " AND ")
    ensures |FilterValues(q)| > 0
  {
    assert Present(q) != [];
  }

  /** Documents the template literal of the statement text: the select, the WHERE
      part and the order clause, each after one space, so the text ends with the
      order clause whether or not there is a WHERE part (two spaces when there is
      none). */
  lemma StatementShape(q: QueryParams)
    ensures "SELECT * FROM payment_reminders " + FilterQuery(q) + " " <= Statement(q)
    ensures |OrderQuery(q)| < |Statement(q)|
    ensures Statement(q)[|Statement(q)| - |OrderQuery(q)| - 1..] == " " + OrderQuery(q)
  {
    var head := "SELECT * FROM payment_reminders " + FilterQuery(q);
    assert Statement(q) == head + (" " + OrderQuery(q));
  }

  /** Two requests that supply the same fields and agree on sorting by priority get
      the same statement text, whatever the values: the values travel only in
      `FilterValues`, never in the text. */
  lemma {:induction false} TextIgnoresValues(q1: QueryParams, q2: QueryParams)
    requires forall c :: Truthy(Arg(q1, c)) == Truthy(Arg(q2, c))
    requires SortsByPriority(q1) == SortsByPriority(q2)
    ensures Filters(q1) == Filters(q2)
    ensures Statement(q1) == Statement(q2)
  {
    assert Truthy(Arg(q1, DueDateColumn)) == Truthy(Arg(q2, DueDateColumn));
    assert Truthy(Arg(q1, StatusColumn)) == Truthy(Arg(q2, StatusColumn));
    assert Truthy(Arg(q1, PriorityColumn)) == Truthy(Arg(q2, PriorityColumn));
    assert Present(q1) == Present(q2);
  }

  /** All three filters and the default order: three numbered clauses, the three
      values in the same order. */
  lemma ExampleAllFilters()
    ensures var q := QueryParams(Some("2026-01-31"), Some("pending"), Some("high"), None);
      Filters(q) == ["due_date = $1", "status = $2", "priority = $3"]
      && FilterValues(q) == ["2026-01-31", "pending", "high"]
      && OrderQuery(q) == "ORDER BY due_date ASC"
  {
    var q := QueryParams(Some("2026-01-31"), Some("pending"), Some("high"), None);
    assert Present(q) == [DueDateColumn, StatusColumn, PriorityColumn];
    assert Clause(DueDateColumn, 1) == "due_date = $1";
    assert Clause(StatusColumn, 2) == "status = $2";
    assert Clause(PriorityColumn, 3) == "priority = $3";
  }

  /** An empty status is no filter, so the priority clause takes $1. */
  lemma ExamplePriorityOnly()
    ensures var q := QueryParams(None, Some(""), Some("low"), Some("priority"));
      FilterQuery(q) == "WHERE priority = $1"
      && FilterValues(q) == ["low"]
      && OrderQuery(q) == "ORDER BY priority ASC"
  {
    var q := QueryParams(None, Some(""), Some("low"), Some("priority"));
    var clause := Clause(PriorityColumn, 1);
    assert Present(q) == [PriorityColumn];
    assert Filters(q) == [clause];
    assert Join([clause], " AND ") == clause;
    assert FilterQuery(q) == "WHERE " + clause;
    assert clause == "priority = $1";
  }

  /** No filter, and a `sort_by` other than "priority". */
  lemma ExampleNoFilters()
    ensures Statement(QueryParams(None, None, None, Some("title")))
      == "SELECT * FROM payment_reminders  ORDER BY due_date ASC"
  {
    var q := QueryParams(None, None, None, Some("title"));
    assert Present(q) == [];
  }

  // ---- What the WHERE part selects ----

  /** A stored row as the filter sees it: the text of its three filterable columns. */
  datatype RowText = RowText(dueDate: string, status: string, priority: string)

  function Cell(r: RowText, c: Column): string
  {
    match c
    case DueDateColumn => r.dueDate
    case StatusColumn => r.status
    case PriorityColumn => r.priority
  }

  /** A clause holds of a row when the column it names equals the value bound to
      its placeholder. */
  predicate ClauseHolds(r: RowText, clause: string, values: seq<string>)
  {
    match ParseClause(clause)
    case None => false
    case Some((c, k)) => 1 <= k <= |values| && Cell(r, c) == values[k - 1]
  }

  /** A row passes the WHERE part when every clause holds. */
  predicate MatchesWhere(r: RowText, filters: seq<string>, values: seq<string>)
  {
    forall i :: 0 <= i < |filters| ==> ClauseHolds(r, filters[i], values)
  }

  /** What the request asks for: every truthy field equals the row's column. */
  predicate Satisfies(r: RowText, q: QueryParams)
  {
    forall c :: Truthy(Arg(q, c)) ==> Cell(r, c) == Arg(q, c).value
  }

  /** The clause at position i holds exactly when its column has the bound value. */
  lemma ClauseHoldsAt(r: RowText, q: QueryParams, i: nat)
    requires i < |Present(q)|
    ensures i < |Filters(q)|
    ensures ClauseHolds(r, Filters(q)[i], FilterValues(q))
      <==> Cell(r, Present(q)[i]) == Arg(q, Present(q)[i]).value
  {
    ParseClauseOfClause(Present(q)[i], i + 1);
  }

  /** The built statement selects exactly the rows the request asks for. */
  lemma {:induction false} WhereMeansEquality(r: RowText, q: QueryParams)
    ensures MatchesWhere(r, Filters(q), FilterValues(q)) <==> Satisfies(r, q)
  {
    var cols, fs, vs := Present(q), Filters(q), FilterValues(q);
    assert |fs| == |cols|;
    if MatchesWhere(r, fs, vs) {
      forall c | Truthy(Arg(q, c)) ensures Cell(r, c) == Arg(q, c).value {
        var i :| 0 <= i < |cols| && cols[i] == c;
        assert ClauseHolds(r, fs[i], vs);
        ClauseHoldsAt(r, q, i);
      }
    }
    if Satisfies(r, q) {
      forall i | 0 <= i < |fs| ensures ClauseHolds(r, fs[i], vs) {
        assert cols[i] in cols;
        ClauseHoldsAt(r, q, i);
      }
    }
  }

  /** `q2` keeps every filter of `q1` with the same value, and may add more. */
  predicate Extends(q2: QueryParams, q1: QueryParams)
  {
    forall c :: Truthy(Arg(q1, c)) ==> Arg(q2, c) == Arg(q1, c)
  }

  /** The built statement's WHERE part with its bound values, as a condition on rows. */
  function WherePart(q: QueryParams): RowText -> bool
  {
    var fs, vs := Filters(q), FilterValues(q);
    (x: RowText) => MatchesWhere(x, fs, vs)
  }

  /** The rows of a table the built statement selects, in table order. */
  function Selected(rows: seq<RowText>, q: QueryParams): (r: seq<RowText>)
    ensures forall x :: x in r <==> x in rows && MatchesWhere(x, Filters(q), FilterValues(q))
  {
    Tables.SelectWhere(rows, WherePart(q))
  }

  /** The statement returns each row the request asks for as often as the table
      holds it, and no other row; selecting from two stretches of a table is
      selecting from each, so the rows keep table order. */
  lemma SelectedCounts(rows: seq<RowText>, more: seq<RowText>, q: QueryParams, x: RowText)
    ensures multiset(Selected(rows, q))[x] == if Satisfies(x, q) then multiset(rows)[x] else 0
    ensures Selected(rows + more, q) == Selected(rows, q) + Selected(more, q)
  {
    Tables.SelectWhereCounts(rows, WherePart(q), x);
    Tables.SelectWhereAppend(rows, more, WherePart(q));
    WhereMeansEquality(x, q);
  }

  /** Adding a filter never enlarges the selection. */
  lemma SelectionNarrows(rows: seq<RowText>, q1: QueryParams, q2: QueryParams)
    requires Extends(q2, q1)
    ensures forall x :: x in Selected(rows, q2) ==> x in Selected(rows, q1)
  {
    forall x | x in Selected(rows, q2) ensures x in Selected(rows, q1) {
      WhereMeansEquality(x, q2);
      WhereMeansEquality(x, q1);
    }
  }

  /** Without filters every row is selected. */
  lemma NoFiltersSelectAll(rows: seq<RowText>, q: QueryParams)
    requires !Truthy(q.dueDate) && !Truthy(q.status) && !Truthy(q.priority)
    ensures forall x :: x in rows ==> x in Selected(rows, q)
  {
  }
}

=== FILE: sql_text.dfy ===
/** The pieces of string handling the query builder relies on: JavaScript's
    rendering of a non-negative integer in `'…$' + n`, its inverse, and
    `Array.prototype.join`. */
module SqlText {
  import opened Wrappers

  predicate IsDigit(c: char)
  {
    '0' <= c <= '9'
  }

  predicate AllDigits(s: string)
  {
    forall i :: 0 <= i < |s| ==> IsDigit(s[i])
  }

  function DigitChar(d: nat): (c: char)
    requires d < 10
    ensures IsDigit(c) && DigitValue(c) == d
  {
    (48 + d) as char
  }

  function DigitValue(c: char): (r: nat)
    requires IsDigit(c)
  {
    c as int - '0' as int
  }

  /** Decimal digits of `n`, most significant first, with no leading zero. */
  function NatToString(n: nat): (s: string)
    ensures |s| > 0 && AllDigits(s)
    ensures |s| > 1 ==> s[0] != '0'
  {
    if n < 10 then [DigitChar(n)] else NatToString(n / 10) + [DigitChar(n % 10)]
  }

  /** Value of a string of decimal digits. */
  function DigitsValue(s: string): (r: nat)
    requires AllDigits(s)
  {
    if s == [] then 0 else DigitsValue(s[..|s| - 1]) * 10 + DigitValue(s[|s| - 1])
  }

  /** Reads a placeholder number back: a non-empty string of digits, or nothing. */
  function ParseNat(s: string): (r: Option<nat>)
  {
    if |s| > 0 && AllDigits(s) then Some(DigitsValue(s)) else None
  }

  /** Rendering then reading back gives the number: placeholder `$k` names k. */
  lemma {:induction false} ParseNatOfNatToString(n: nat)
    ensures ParseNat(NatToString(n)) == Some(n)
  {
    var s := NatToString(n);
    if n < 10 {
      assert s[..|s| - 1] == [];
    } else {
      ParseNatOfNatToString(n / 10);
      assert s[..|s| - 1] == NatToString(n / 10);
      assert DigitValue(s[|s| - 1]) == n % 10;
      assert DigitsValue(s) == (n / 10) * 10 + n % 10;
    }
  }

  /** `parts.join(sep)`: the parts in order with `sep` between neighbours, so the
      text begins with the first part and ends with the last. */
  function Join(parts: seq<string>, sep: string): (r: string)
    ensures |parts| == 0 ==> r == ""
    ensures |parts| > 0 ==> parts[0] <= r
    ensures |parts| > 0 ==> |parts[|parts| - 1]| <= |r| && r[|r| - |parts[|parts| - 1]|..] == parts[|parts| - 1]
    ensures |parts| > 1 ==> parts[0] + sep <= r
  {
    if |parts| == 0 then ""
    else if |parts| == 1 then parts[0]
    else
      var rest := Join(parts[1..], sep);
      assert parts[1..][|parts[1..]| - 1] == parts[|parts| - 1];
      parts[0] + sep + rest
  }
}

=== FILE: store_types.dfy ===
/** How the store turns a bound parameter into a column value.  A value that does
    not fit the column's SQL type makes the statement fail; where that happens
    matters: a parameter the store cannot read at all fails while the statement is
    bound, before any row is looked at, while a value that does not fit a column's
    length, range or NOT NULL fails only when a row is written. */
module StoreTypes {
  import opened Wrappers

  predicate AllSpaces(s: string)
  {
    forall i :: 0 <= i < |s| ==> s[i] == ' '
  }

  /** Assigning text to a `VARCHAR(n)` column.  Text of at most n characters is kept
      as it is.  Longer text is cut to n characters when everything past the n-th is
      a space, and refused otherwise. */
  function Varchar(v: string, n: nat): (r: Option<string>)
    ensures |v| <= n ==> r == Some(v)
    ensures r.None? <==> |v| > n && !AllSpaces(v[n..])
    ensures r.Some? ==> |r.value| == (if |v| <= n then |v| else n) && r.value <= v && AllSpaces(v[|r.value|..])
  {
    if |v| <= n then Some(v)
    else if AllSpaces(v[n..]) then Some(v[..n])
    else None
  }

  /** The range of an `INT` column. */
  const MinInt4 := -0x8000_0000
  const MaxInt4 := 0x7fff_ffff

  predicate IsInt4(n: int)
  {
    MinInt4 <= n <= MaxInt4
  }

  /** A parameter bound to a `DATE` column, as the store reads it: NULL (the request
      left the field out), the day it names, or text it cannot read as a date. */
  datatype DateParam = NullDate | ReadsAs(day: int) | NotADate
}

=== FILE: tables.dfy ===
/** A table is a sequence of rows in storage order.  These are the things the
    services ask of a table: the first row a condition selects (what `rows[0]` of
    a result is), a `SELECT … WHERE`, an `UPDATE … WHERE` and a `DELETE … WHERE`. */
module Tables {
  import opened Wrappers

  /** Index of the first row satisfying `p`, or None when no row does. */
  function FirstWhere<T>(rows: seq<T>, p: T -> bool): (r: Option<nat>)
    ensures r.Some? ==> r.value < |rows| && p(rows[r.value])
    ensures r.Some? ==> forall j :: 0 <= j < r.value ==> !p(rows[j])
    ensures r.None? <==> forall j :: 0 <= j < |rows| ==> !p(rows[j])
  {
    if |rows| == 0 then None
    else if p(rows[0]) then Some(0)
    else match FirstWhere(rows[1..], p)
      case None => None
      case Some(i) => Some(i + 1)
  }

  /** True when some row satisfies `p`: the statement's result has at least one row. */
  predicate AnyWhere<T>(rows: seq<T>, p: T -> bool)
  {
    exists i :: 0 <= i < |rows| && p(rows[i])
  }

  /** `UPDATE … SET … WHERE p`: every selected row is rewritten by `f`, the others
      stay, and the table keeps its order and length. */
  function UpdateWhere<T>(rows: seq<T>, p: T -> bool, f: T -> T): (r: seq<T>)
    ensures |r| == |rows|
    ensures forall i :: 0 <= i < |rows| ==> r[i] == if p(rows[i]) then f(rows[i]) else rows[i]
  {
    if |rows| == 0 then []
    else [if p(rows[0]) then f(rows[0]) else rows[0]] + UpdateWhere(rows[1..], p, f)
  }

  /** `SELECT * … WHERE p`: exactly the selected rows; `SelectWhereCounts` says each
      as often as in the table and `SelectWhereAppend` that they keep table order. */
  function SelectWhere<T(!new)>(rows: seq<T>, p: T -> bool): (r: seq<T>)
    ensures |r| <= |rows|
    ensures forall i :: 0 <= i < |r| ==> p(r[i]) && r[i] in rows
    ensures forall i :: 0 <= i < |rows| && p(rows[i]) ==> rows[i] in r
  {
    if |rows| == 0 then []
    else (if p(rows[0]) then [rows[0]] else []) + SelectWhere(rows[1..], p)
  }

  /** Each selected row appears exactly as often as it is in the table, and no row
      that is not selected appears. */
  lemma {:induction false} SelectWhereCounts<T(!new)>(rows: seq<T>, p: T -> bool, x: T)
    ensures multiset(SelectWhere(rows, p))[x] == if p(x) then multiset(rows)[x] else 0
  {
    if |rows| > 0 {
      SelectWhereCounts(rows[1..], p, x);
      assert rows == [rows[0]] + rows[1..];
    }
  }

  /** Selecting from two stretches of a table is selecting from each: the selected
      rows come in table order. */
  lemma {:induction false} SelectWhereAppend<T(!new)>(a: seq<T>, b: seq<T>, p: T -> bool)
    ensures SelectWhere(a + b, p) == SelectWhere(a, p) + SelectWhere(b, p)
  {
    if |a| == 0 {
      assert a + b == b;
    } else {
      SelectWhereAppend(a[1..], b, p);
      assert (a + b)[1..] == a[1..] + b;
      var head := if p(a[0]) then [a[0]] else [];
      calc {
        SelectWhere(a + b, p);
        head + SelectWhere(a[1..] + b, p);
        head + (SelectWhere(a[1..], p) + SelectWhere(b, p));
        (head + SelectWhere(a[1..], p)) + SelectWhere(b, p);
      }
    }
  }

  /** `DELETE … WHERE p`: exactly the rows not selected remain; `DeleteWhereCounts`
      says each as often as before and `DeleteWhereAppend` that they keep their order. */
  function DeleteWhere<T(!new)>(rows: seq<T>, p: T -> bool): (r: seq<T>)
    ensures |r| <= |rows|
    ensures forall i :: 0 <= i < |r| ==> !p(r[i])
    ensures forall i :: 0 <= i < |r| ==> r[i] in rows
    ensures forall i :: 0 <= i < |rows| && !p(rows[i]) ==> rows[i] in r
  {
    if |rows| == 0 then []
    else (if p(rows[0]) then [] else [rows[0]]) + DeleteWhere(rows[1..], p)
  }

  /** Each row not selected remains exactly as often as it was in the table, and no
      selected row remains. */
  lemma {:induction false} DeleteWhereCounts<T(!new)>(rows: seq<T>, p: T -> bool, x: T)
    ensures multiset(DeleteWhere(rows, p))[x] == if p(x) then 0 else multiset(rows)[x]
  {
    if |rows| > 0 {
      DeleteWhereCounts(rows[1..], p, x);
      assert rows == [rows[0]] + rows[1..];
    }
  }

  /** Deleting from two stretches of a table is deleting from each: the rows that
      remain keep their relative order. */
  lemma {:induction false} DeleteWhereAppend<T(!new)>(a: seq<T>, b: seq<T>, p: T -> bool)
    ensures DeleteWhere(a + b, p) == DeleteWhere(a, p) + DeleteWhere(b, p)
  {
    if |a| == 0 {
      assert a + b == b;
    } else {
      DeleteWhereAppend(a[1..], b, p);
      assert (a + b)[1..] == a[1..] + b;
      var head := if p(a[0]) then [] else [a[0]];
      calc {
        DeleteWhere(a + b, p);
        head + DeleteWhere(a[1..] + b, p);
        head + (DeleteWhere(a[1..], p) + DeleteWhere(b, p));
        (head + DeleteWhere(a[1..], p)) + DeleteWhere(b, p);
      }
    }
  }

  /** No two rows share a key: what a PRIMARY KEY column guarantees. */
  predicate Distinct<T>(rows: seq<T>, key: T -> int)
  {
    forall i, j :: 0 <= i < j < |rows| ==> key(rows[i]) != key(rows[j])
  }

  /** Deleting rows never creates a duplicate key. */
  lemma {:induction false} DeleteWhereKeepsDistinct<T(!new)>(rows: seq<T>, p: T -> bool, key: T -> int)
    requires Distinct(rows, key)
    ensures Distinct(DeleteWhere(rows, p), key)
  {
    if |rows| > 0 {
      var rest := DeleteWhere(rows[1..], p);
      DeleteWhereKeepsDistinct(rows[1..], p, key);
      if !p(rows[0]) {
        forall i | 0 <= i < |rest| ensures key(rest[i]) != key(rows[0]) {
          assert rest[i] in rows[1..];
        }
        assert DeleteWhere(rows, p) == [rows[0]] + rest;
      } else {
        assert DeleteWhere(rows, p) == rest;
      }
    }
  }

  /** An update whose rewrite keeps the key keeps the keys distinct. */
  lemma UpdateWhereKeepsDistinct<T>(rows: seq<T>, p: T -> bool, f: T -> T, key: T -> int)
    requires Distinct(rows, key)
    requires forall x :: key(f(x)) == key(x)
    ensures Distinct(UpdateWhere(rows, p, f), key)
  {
  }
}

=== FILE: transactions.dfy ===
/** The financial-transaction service (backend_files/transactions.js): the
    per-user income/expense/balance summary of `/transtotal/:user_id`, and the
    create, update and delete handlers whose answers it depends on.  Amounts are
    whole cents, so the `DECIMAL(10, 2)` column loses nothing. */
module Transactions {
  import opened Wrappers
  import opened StoreTypes
  import Tables

  type Day = int

  /** The two values the CHECK constraint on `transaction_type` admits. */
  datatype TxnType = Income | Expense

  datatype Txn = Txn(id: int, userId: int, category: string, amount: int, kind: TxnType, date: Day)

  /** The largest magnitude `DECIMAL(10, 2)` holds, in cents: 99999999.99. */
  const MaxCents := 9_999_999_999

  predicate ValidAmount(cents: int)
  {
    -MaxCents <= cents <= MaxCents
  }

  // ---- The summary query ----

  /** `WHERE user_id = $1`: the user's rows, in table order. */
  function RowsOf(rows: seq<Txn>, user: int): (r: seq<Txn>)
    ensures forall t :: t in r <==> t in rows && t.userId == user
  {
    if |rows| == 0 then []
    else (if rows[0].userId == user then [rows[0]] else []) + RowsOf(rows[1..], user)
  }

  /** `SUM(CASE WHEN transaction_type = 'income' THEN amount ELSE 0 END)`: expense
      rows add nothing, income rows add their amount. */
  function IncomeSum(rows: seq<Txn>): (r: int)
  {
    if |rows| == 0 then 0
    else (if rows[0].kind == Income then rows[0].amount else 0) + IncomeSum(rows[1..])
  }

  /** `SUM(CASE WHEN transaction_type = 'expense' THEN amount ELSE 0 END)`: income
      rows add nothing, expense rows add their amount. */
  function ExpenseSum(rows: seq<Txn>): (r: int)
  {
    if |rows| == 0 then 0
    else (if rows[0].kind == Expense then rows[0].amount else 0) + ExpenseSum(rows[1..])
  }

  /** The sum of `amount` over all the rows. */
  function AmountSum(rows: seq<Txn>): (r: int)
  {
    if |rows| == 0 then 0 else rows[0].amount + AmountSum(rows[1..])
  }

  /** The user's rows of one type. */
  function RowsOfKind(rows: seq<Txn>, user: int, kind: TxnType): (r: seq<Txn>)
  {
    if |rows| == 0 then []
    else (if rows[0].userId == user && rows[0].kind == kind then [rows[0]] else []) + RowsOfKind(rows[1..], user, kind)
  }

  /** The money that came in minus the money that went out, row by row. */
  function NetFlow(rows: seq<Txn>): (r: int)
  {
    if |rows| == 0 then 0
    else (if rows[0].kind == Income then rows[0].amount else -rows[0].amount) + NetFlow(rows[1..])
  }

  /** One row of the `GROUP BY user_id` result. */
  datatype Summary = Summary(userId: int, totalIncome: int, totalExpense: int, balance: int)

  const NoTransactionsError := "No transactions found for this user."

  /** The summary statement of GET /transtotal/:user_id.  None is an empty result:
      a user without rows has no group, so there is no summary to send, not a
      summary of zeros. */
  function Summarize(rows: seq<Txn>, user: int): (r: Option<Summary>)
    ensures r.None? <==> forall t :: t in rows ==> t.userId != user
    ensures r.Some? ==> r.value.userId == user
    ensures r.Some? ==> r.value.balance == r.value.totalIncome - r.value.totalExpense
  {
    var mine := RowsOf(rows, user);
    if |mine| == 0 then None
    else Some(Summary(user, IncomeSum(mine), ExpenseSum(mine), IncomeSum(mine) - ExpenseSum(mine)))
  }

  // ---- What the sums mean ----

  lemma {:induction false} IncomeSumIsIncomeRows(rows: seq<Txn>, user: int)
    ensures IncomeSum(RowsOf(rows, user)) == AmountSum(RowsOfKind(rows, user, Income))
  {
    if |rows| > 0 {
      IncomeSumIsIncomeRows(rows[1..], user);
      var mine, kinds := RowsOf(rows[1..], user), RowsOfKind(rows[1..], user, Income);
      if rows[0].userId == user {
        assert RowsOf(rows, user) == [rows[0]] + mine;
        assert ([rows[0]] + mine)[1..] == mine;
        if rows[0].kind == Income {
          assert RowsOfKind(rows, user, Income) == [rows[0]] + kinds;
          assert ([rows[0]] + kinds)[1..] == kinds;
        } else {
          assert RowsOfKind(rows, user, Income) == kinds;
        }
      } else {
        assert RowsOf(rows, user) == mine;
        assert RowsOfKind(rows, user, Income) == kinds;
      }
    }
  }

  lemma {:induction false} ExpenseSumIsExpenseRows(rows: seq<Txn>, user: int)
    ensures ExpenseSum(RowsOf(rows, user)) == AmountSum(RowsOfKind(rows, user, Expense))
  {
    if |rows| > 0 {
      ExpenseSumIsExpenseRows(rows[1..], user);
      var mine, kinds := RowsOf(rows[1..], user), RowsOfKind(rows[1..], user, Expense);
      if rows[0].userId == user {
        assert RowsOf(rows, user) == [rows[0]] + mine;
        assert ([rows[0]] + mine)[1..] == mine;
        if rows[0].kind == Expense {
          assert RowsOfKind(rows, user, Expense) == [rows[0]] + kinds;
          assert ([rows[0]] + kinds)[1..] == kinds;
        } else {
          assert RowsOfKind(rows, user, Expense) == kinds;
        }
      } else {
        assert RowsOf(rows, user) == mine;
        assert RowsOfKind(rows, user, Expense) == kinds;
      }
    }
  }

  /** Each CASE-sum picks the rows of its own type: over rows of the other type it is
      0, over rows of its type it is the plain sum of the amounts. */
  lemma {:induction false} SumsPickTheirType(rows: seq<Txn>)
    ensures (forall i :: 0 <= i < |rows| ==> rows[i].kind == Expense) ==> IncomeSum(rows) == 0
    ensures (forall i :: 0 <= i < |rows| ==> rows[i].kind == Income) ==> IncomeSum(rows) == AmountSum(rows)
    ensures (forall i :: 0 <= i < |rows| ==> rows[i].kind == Income) ==> ExpenseSum(rows) == 0
    ensures (forall i :: 0 <= i < |rows| ==> rows[i].kind == Expense) ==> ExpenseSum(rows) == AmountSum(rows)
  {
    if |rows| > 0 {
      SumsPickTheirType(rows[1..]);
    }
  }

  /** The summary's totals are the sums of `amount` over the user's income rows and
      over the user's expense rows. */
  lemma SummaryTotals(rows: seq<Txn>, user: int)
    requires Summarize(rows, user).Some?
    ensures Summarize(rows, user).value.totalIncome == AmountSum(RowsOfKind(rows, user, Income))
    ensures Summarize(rows, user).value.totalExpense == AmountSum(RowsOfKind(rows, user, Expense))
  {
    IncomeSumIsIncomeRows(rows, user);
    ExpenseSumIsExpenseRows(rows, user);
  }

  /** Every row lands in exactly one of the two totals. */
  lemma {:induction false} EachRowCountedOnce(rows: seq<Txn>)
    ensures IncomeSum(rows) + ExpenseSum(rows) == AmountSum(rows)
  {
    if |rows| > 0 {
      EachRowCountedOnce(rows[1..]);
    }
  }

  lemma {:induction false} IncomeMinusExpenseIsNetFlow(rows: seq<Txn>)
    ensures IncomeSum(rows) - ExpenseSum(rows) == NetFlow(rows)
  {
    if |rows| > 0 {
      IncomeMinusExpenseIsNetFlow(rows[1..]);
    }
  }

  /** The balance is the net flow of money over the user's rows, exactly, in cents. */
  lemma BalanceIsNetFlow(rows: seq<Txn>, user: int)
    requires Summarize(rows, user).Some?
    ensures Summarize(rows, user).value.balance == NetFlow(RowsOf(rows, user))
  {
    IncomeMinusExpenseIsNetFlow(RowsOf(rows, user));
  }

  // ---- Which rows matter ----

  lemma {:induction false} RowsOfAppend(a: seq<Txn>, b: seq<Txn>, user: int)
    ensures RowsOf(a + b, user) == RowsOf(a, user) + RowsOf(b, user)
  {
    if |a| > 0 {
      RowsOfAppend(a[1..], b, user);
      assert (a + b)[1..] == a[1..] + b;
    } else {
      assert a + b == b;
    }
  }

  lemma {:induction false} IncomeSumAppend(a: seq<Txn>, b: seq<Txn>)
    ensures IncomeSum(a + b) == IncomeSum(a) + IncomeSum(b)
  {
    if |a| > 0 {
      IncomeSumAppend(a[1..], b);
      assert (a + b)[1..] == a[1..] + b;
    } else {
      assert a + b == b;
    }
  }

  lemma {:induction false} ExpenseSumAppend(a: seq<Txn>, b: seq<Txn>)
    ensures ExpenseSum(a + b) == ExpenseSum(a) + ExpenseSum(b)
  {
    if |a| > 0 {
      ExpenseSumAppend(a[1..], b);
      assert (a + b)[1..] == a[1..] + b;
    } else {
      assert a + b == b;
    }
  }

  lemma {:induction false} RowsOfNone(rows: seq<Txn>, user: int)
    requires forall t :: t in rows ==> t.userId != user
    ensures RowsOf(rows, user) == []
  {
    if |rows| > 0 {
      assert rows[0] in rows;
      RowsOfNone(rows[1..], user);
    }
  }

  /** Rows of other users, wherever they stand in the table, change nothing. */
  lemma OtherUsersIgnored(a: seq<Txn>, others: seq<Txn>, b: seq<Txn>, user: int)
    requires forall t :: t in others ==> t.userId != user
    ensures Summarize(a + others + b, user) == Summarize(a + b, user)
  {
    var mineA := RowsOf(a, user);
    RowsOfNone(others, user);
    RowsOfAppend(a, others, user);
    assert RowsOf(a + others, user) == mineA + [] == mineA;
    RowsOfAppend(a + others, b, user);
    RowsOfAppend(a, b, user);
    SameRowsSameSummary(a + others + b, a + b, user);
  }

  /** The summary depends on the table only through the user's rows. */
  lemma SameRowsSameSummary(r1: seq<Txn>, r2: seq<Txn>, user: int)
    requires RowsOf(r1, user) == RowsOf(r2, user)
    ensures Summarize(r1, user) == Summarize(r2, user)
  {
  }

  /** The user's income and expense totals over two stretches of a table add up. */
  lemma MineAppend(a: seq<Txn>, b: seq<Txn>, user: int)
    ensures IncomeSum(RowsOf(a + b, user)) == IncomeSum(RowsOf(a, user)) + IncomeSum(RowsOf(b, user))
    ensures ExpenseSum(RowsOf(a + b, user)) == ExpenseSum(RowsOf(a, user)) + ExpenseSum(RowsOf(b, user))
  {
    RowsOfAppend(a, b, user);
    IncomeSumAppend(RowsOf(a, user), RowsOf(b, user));
    ExpenseSumAppend(RowsOf(a, user), RowsOf(b, user));
  }

  /** Taking the row at `i` out of a table takes one copy of it out of the table's
      multiset. */
  lemma TakeOut(rows: seq<Txn>, i: nat)
    requires i < |rows|
    ensures rows == rows[..i] + [rows[i]] + rows[i + 1..]
    ensures multiset(rows[..i] + rows[i + 1..]) == multiset(rows) - multiset{rows[i]}
  {
    assert rows == rows[..i] + [rows[i]] + rows[i + 1..];
  }

  /** Two tables holding the same rows, each as often, give the same totals. */
  lemma {:induction false} PermutedTotals(r1: seq<Txn>, r2: seq<Txn>, user: int)
    requires multiset(r1) == multiset(r2)
    ensures IncomeSum(RowsOf(r1, user)) == IncomeSum(RowsOf(r2, user))
    ensures ExpenseSum(RowsOf(r1, user)) == ExpenseSum(RowsOf(r2, user))
    decreases |r1|
  {
    if |r1| > 0 {
      var x := r1[0];
      assert x in multiset(r2);
      var i :| 0 <= i < |r2| && r2[i] == x;
      var front, back := r2[..i], r2[i + 1..];
      var rest := r1[1..];
      TakeOut(r1, 0);
      TakeOut(r2, i);
      assert r1[..0] + rest == rest;
      PermutedTotals(rest, front + back, user);
      MoveRow(x, rest, front, back, user);
    }
  }

  /** Moving one row from the front of a table into the middle of another with the
      same totals keeps the totals equal. */
  lemma MoveRow(x: Txn, rest: seq<Txn>, front: seq<Txn>, back: seq<Txn>, user: int)
    requires IncomeSum(RowsOf(rest, user)) == IncomeSum(RowsOf(front + back, user))
    requires ExpenseSum(RowsOf(rest, user)) == ExpenseSum(RowsOf(front + back, user))
    ensures IncomeSum(RowsOf([x] + rest, user)) == IncomeSum(RowsOf(front + [x] + back, user))
    ensures ExpenseSum(RowsOf([x] + rest, user)) == ExpenseSum(RowsOf(front + [x] + back, user))
  {
    MineAppend([x], rest, user);
    MineAppend(front + [x], back, user);
    MineAppend(front, [x], user);
    MineAppend(front, back, user);
  }

  /** The summary does not depend on the order of the rows: any two tables holding the
      same rows, each as often, give the same answer. */
  lemma SummaryIgnoresOrder(r1: seq<Txn>, r2: seq<Txn>, user: int)
    requires multiset(r1) == multiset(r2)
    ensures Summarize(r1, user) == Summarize(r2, user)
  {
    PermutedTotals(r1, r2, user);
    if Summarize(r1, user).None? {
      forall t | t in r2 ensures t.userId != user {
        assert t in multiset(r1);
      }
    }
    if Summarize(r2, user).None? {
      forall t | t in r1 ensures t.userId != user {
        assert t in multiset(r2);
      }
    }
  }

  /** Income 100.00, expense 40.00 and income 25.50 for user 7 give income 125.50,
      expense 40.00 and balance 85.50. */
  lemma ExampleSummary()
    ensures Summarize([Txn(1, 7, "salary", 10000, Income, 0),
                       Txn(2, 7, "rent", 4000, Expense, 0),
                       Txn(3, 7, "refund", 2550, Income, 0)], 7)
         == Some(Summary(7, 12550, 4000, 8550))
  {
    var rows := [Txn(1, 7, "salary", 10000, Income, 0), Txn(2, 7, "rent", 4000, Expense, 0), Txn(3, 7, "refund", 2550, Income, 0)];
    assert RowsOf(rows, 7) == rows by {
      assert rows[1..][1..][1..] == [];
    }
  }

  // ---- The write handlers ----

  /** A request body for create and update.  A field is None when it is absent; a
      transaction type is also None when it names a value the CHECK constraint
      refuses. */
  datatype TxnInput = TxnInput(
    userId: Option<int>,
    category: Option<string>,
    amount: Option<int>,
    kind: Option<TxnType>,
    date: DateParam)

  datatype Store = Store(rows: seq<Txn>, nextId: int)

  datatype Reply =
    | Created(row: Txn)
    | Updated(row: Txn)
    | Message(text: string)
    | Totals(summary: Summary)
    | NotFound(error: string)
    | Failed(error: string)
  {
    function Code(): int
    {
      match this
      case Created(_) => 201
      case Updated(_) => 200
      case Message(_) => 200
      case Totals(_) => 200
      case NotFound(_) => 404
      case Failed(_) => 500
    }
  }

  datatype Outcome = Outcome(reply: Reply, store: Store)

  const TxnNotFoundError := "Transaction not found"
  const DeletedMessage := "Transaction deleted successfully"
  const ServerError := "Internal Server Error"

  /** `WHERE id = $k`. */
  function IdIs(id: int): Txn -> bool
  {
    (t: Txn) => t.id == id
  }

  /** The store cannot bind the parameters at all: a `user_id` outside `INT`, or a
      date it cannot read.  The statement then fails before it looks at any row. */
  predicate BindFails(input: TxnInput)
  {
    (input.userId.Some? && !IsInt4(input.userId.value)) || input.date.NotADate?
  }

  /** GET /transtotal/:user_id.  The user id is bound as an `INT`, so one outside
      that range fails before any row is read; otherwise a user without rows is a
      404 and a user with rows gets the summary. */
  function Total(s: Store, user: int): (r: Reply)
    ensures r.Code() == 500 <==> !IsInt4(user)
    ensures r.Code() == 500 ==> r == Failed(ServerError)
    ensures r.Code() == 404 <==> IsInt4(user) && forall t :: t in s.rows ==> t.userId != user
    ensures r.Code() == 404 ==> r.error == NoTransactionsError
    ensures r.Code() == 200 <==> IsInt4(user) && Summarize(s.rows, user).Some?
    ensures r.Code() == 200 ==> r == Totals(Summarize(s.rows, user).value)
  {
    if !IsInt4(user) then Failed(ServerError)
    else match Summarize(s.rows, user)
      case None => NotFound(NoTransactionsError)
      case Some(summary) => Totals(summary)
  }

  /** The row a body writes under id `id`, or None when the store refuses it: a NULL in
      a NOT NULL column, a `user_id` outside `INT`, a category longer than
      `VARCHAR(50)` holds, an amount `DECIMAL(10, 2)` cannot hold, or a date it
      cannot read. */
  function RowFor(id: int, input: TxnInput): (r: Option<Txn>)
    ensures BindFails(input) ==> r.None?
    ensures r.Some? ==>
      r.value.id == id && Some(r.value.userId) == input.userId && IsInt4(r.value.userId)
      && Some(r.value.amount) == input.amount && ValidAmount(r.value.amount)
      && Some(r.value.kind) == input.kind && input.date == ReadsAs(r.value.date)
      && input.category.Some? && Varchar(input.category.value, 50) == Some(r.value.category)
  {
    if input.userId.Some? && IsInt4(input.userId.value)
       && input.category.Some? && Varchar(input.category.value, 50).Some?
       && input.amount.Some? && ValidAmount(input.amount.value)
       && input.kind.Some? && input.date.ReadsAs?
    then Some(Txn(id, input.userId.value, Varchar(input.category.value, 50).value, input.amount.value,
                  input.kind.value, input.date.day))
    else None
  }

  /** POST /transactions.  A body the store refuses is a 500, and so is an insert
      once the SERIAL column's `INT` sequence is past `MaxInt4`. */
  function Create(s: Store, input: TxnInput): (r: Outcome)
    ensures r.reply.Code() == 201 <==> RowFor(s.nextId, input).Some? && s.nextId <= MaxInt4
    ensures r.reply.Code() == 201 ==>
      r.reply.row == RowFor(s.nextId, input).value && r.store == Store(s.rows + [r.reply.row], s.nextId + 1)
    ensures r.reply.Code() != 201 ==> r.reply == Failed(ServerError) && r.store == s
  {
    match RowFor(s.nextId, input)
    case None => Outcome(Failed(ServerError), s)
    case Some(row) =>
      if s.nextId > MaxInt4 then Outcome(Failed(ServerError), s)
      else Outcome(Created(row), Store(s.rows + [row], s.nextId + 1))
  }

  /** PUT /transactions/:id: every column but the id is replaced.  Parameters the
      store cannot bind, including an id outside `INT`, fail before any row is
      matched; a value a column refuses
      fails only when a row is written, so an unknown id is a 404 first. */
  function Update(s: Store, id: int, input: TxnInput): (r: Outcome)
    ensures r.reply.Code() == 404 <==> !BindFails(input) && IsInt4(id) && !Tables.AnyWhere(s.rows, IdIs(id))
    ensures r.reply.Code() == 404 ==> r.reply.error == TxnNotFoundError
    ensures r.reply.Code() == 200 <==> IsInt4(id) && Tables.AnyWhere(s.rows, IdIs(id)) && RowFor(id, input).Some?
    ensures BindFails(input) || !IsInt4(id) ==> r == Outcome(Failed(ServerError), s)
    ensures r.reply.Code() == 500 <==>
      BindFails(input) || !IsInt4(id) || (Tables.AnyWhere(s.rows, IdIs(id)) && RowFor(id, input).None?)
    ensures r.reply.Code() == 500 ==> r.reply == Failed(ServerError)
    ensures r.reply.Code() != 200 ==> r.store == s
    ensures r.reply.Code() == 200 ==>
      r.reply == Updated(RowFor(id, input).value) && r.store.nextId == s.nextId && |r.store.rows| == |s.rows|
      && forall i :: 0 <= i < |s.rows| ==>
           r.store.rows[i] == if s.rows[i].id == id then RowFor(id, input).value else s.rows[i]
  {
    if BindFails(input) || !IsInt4(id) then Outcome(Failed(ServerError), s)
    else if !Tables.AnyWhere(s.rows, IdIs(id)) then Outcome(NotFound(TxnNotFoundError), s)
    else match RowFor(id, input)
      case None => Outcome(Failed(ServerError), s)
      case Some(row) => Outcome(Updated(row), Store(Tables.UpdateWhere(s.rows, IdIs(id), (t: Txn) => row), s.nextId))
  }

  /** DELETE /transactions/:id.  An id outside `INT` fails while the statement is
      bound. */
  function Delete(s: Store, id: int): (r: Outcome)
    ensures r.reply.Code() == 500 <==> !IsInt4(id)
    ensures r.reply.Code() == 500 ==> r.reply == Failed(ServerError) && r.store == s
    ensures r.reply.Code() == 404 <==> IsInt4(id) && !Tables.AnyWhere(s.rows, IdIs(id))
    ensures r.reply.Code() == 404 ==> r.reply.error == TxnNotFoundError && r.store == s
    ensures r.reply.Code() == 200 <==> IsInt4(id) && Tables.AnyWhere(s.rows, IdIs(id))
    ensures r.reply.Code() == 200 ==>
      r.reply == Message(DeletedMessage) && r.store.nextId == s.nextId
      && (forall t :: t in r.store.rows <==> t in s.rows && t.id != id)
  {
    if !IsInt4(id) then Outcome(Failed(ServerError), s)
    else if !Tables.AnyWhere(s.rows, IdIs(id)) then Outcome(NotFound(TxnNotFoundError), s)
    else Outcome(Message(DeletedMessage), Store(Tables.DeleteWhere(s.rows, IdIs(id)), s.nextId))
  }

  /** A delete keeps every other row as often as before, and a second delete of the
      same id is a 404. */
  lemma DeleteKeepsOthers(s: Store, id: int, x: Txn)
    requires IsInt4(id) && Tables.AnyWhere(s.rows, IdIs(id))
    ensures multiset(Delete(s, id).store.rows)[x] == if x.id == id then 0 else multiset(s.rows)[x]
    ensures Delete(Delete(s, id).store, id).reply.Code() == 404
  {
    Tables.DeleteWhereCounts(s.rows, IdIs(id), x);
  }

  /** A body the store refuses per row, such as a category of 51 characters that are
      not all spaces, is a 500 on create and a 404 on update of an unknown id. */
  lemma LongCategoryRefused(s: Store, id: int, input: TxnInput)
    requires input.category.Some? && |input.category.value| > 50 && input.category.value[50] != ' '
    requires !BindFails(input) && IsInt4(id) && !Tables.AnyWhere(s.rows, IdIs(id))
    ensures Create(s, input).reply.Code() == 500
    ensures Update(s, id, input).reply.Code() == 404
  {
    assert !AllSpaces(input.category.value[50..]) by {
      assert input.category.value[50..][0] == input.category.value[50];
    }
  }

  /** Recording an income for a user raises that user's income and balance by its
      amount and leaves the expense total as it was; a user's first row creates the
      summary. */
  lemma CreateIncomeRaisesBalance(s: Store, input: TxnInput)
    requires input.kind == Some(Income) && RowFor(s.nextId, input).Some? && s.nextId <= MaxInt4
    ensures var user, amount := input.userId.value, input.amount.value;
      var after := Summarize(Create(s, input).store.rows, user);
      var before := Summarize(s.rows, user);
      after.Some?
      && after.value.totalIncome == (if before.Some? then before.value.totalIncome else 0) + amount
      && after.value.totalExpense == (if before.Some? then before.value.totalExpense else 0)
      && after.value.balance == (if before.Some? then before.value.balance else 0) + amount
  {
    var row := RowFor(s.nextId, input).value;
    RowsOfAppend(s.rows, [row], row.userId);
    assert RowsOf([row], row.userId) == [row];
    IncomeSumAppend(RowsOf(s.rows, row.userId), [row]);
    ExpenseSumAppend(RowsOf(s.rows, row.userId), [row]);
  }

  /** Deleting every row of a user makes that user's summary a 404 again. */
  lemma DeleteLastRowRemovesSummary(s: Store, id: int, user: int)
    requires IsInt4(id)
    requires forall t :: t in s.rows && t.userId == user ==> t.id == id
    ensures Summarize(Delete(s, id).store.rows, user).None?
    ensures IsInt4(user) ==> Total(Delete(s, id).store, user).Code() == 404
  {
  }
}

=== FILE: users.dfy ===
/** The user service (backend_files/Signup.js): the `/login` decision and the
    by-id handlers for `/users/:id`.  The `users` table is a sequence of rows
    searched in table order; passwords are stored and compared as plain text. */
module Users {
  import opened Wrappers
  import Tables

  /** A row of `users`.  `email` and `name` are None when the column is NULL, which
      an update whose body leaves them out produces. */
  datatype User = User(id: int, email: Option<string>, username: string, password: string, name: Option<string>)

  /** JavaScript truthiness of a body field: present and not the empty string. */
  predicate Truthy(v: Option<string>)
  {
    v.Some? && v.value != ""
  }

  // ---- POST /login ----

  datatype LoginReply = MissingCredentials | InvalidCredentials | Welcome(username: string)
  {
    function Code(): int
    {
      match this
      case MissingCredentials => 400
      case InvalidCredentials => 401
      case Welcome(_) => 200
    }

    function Message(): string
    {
      match this
      case MissingCredentials => "Missing email or password."
      case InvalidCredentials => "Invalid username or password."
      case Welcome(name) => "Welcome, " + name + "!"
    }
  }

  /** `SELECT … FROM users WHERE email = $1`, first row: the first user with the
      email, or None when no user has it. */
  function FirstByEmail(users: seq<User>, email: string): (r: Option<nat>)
    ensures r.Some? ==> r.value < |users| && users[r.value].email == Some(email)
    ensures r.Some? ==> forall j :: 0 <= j < r.value ==> users[j].email != Some(email)
    ensures r.None? <==> forall i :: 0 <= i < |users| ==> users[i].email != Some(email)
  {
    Tables.FirstWhere(users, (u: User) => u.email == Some(email))
  }

  /** The login decision: presence first, then the first user with the email, then
      plain equality of the passwords. */
  function Login(users: seq<User>, email: Option<string>, password: Option<string>): (r: LoginReply)
    ensures r.MissingCredentials? <==> !Truthy(email) || !Truthy(password)
    ensures r.Welcome? ==>
      exists i :: 0 <= i < |users| && users[i].email == email
        && users[i].password == password.value && users[i].username == r.username
    ensures r.InvalidCredentials? ==>
      forall i :: 0 <= i < |users| && users[i].email == email ==>
        users[i].password != password.value
        || exists j :: 0 <= j < i && users[j].email == email && users[j].password != password.value
  {
    if !Truthy(email) || !Truthy(password) then MissingCredentials
    else match FirstByEmail(users, email.value)
      case None => InvalidCredentials
      case Some(i) =>
        if users[i].password != password.value then InvalidCredentials
        else Welcome(users[i].username)
  }

  /** A missing or empty field is answered with 400 whatever the table holds: the
      check comes before any lookup. */
  lemma MissingFieldDecidedFirst(users1: seq<User>, users2: seq<User>, email: Option<string>, password: Option<string>)
    requires !Truthy(email) || !Truthy(password)
    ensures Login(users1, email, password) == Login(users2, email, password) == MissingCredentials
    ensures Login(users1, email, password).Code() == 400
  {
  }

  /** An email no user has gives 401. */
  lemma UnknownEmailRejected(users: seq<User>, email: string, password: string)
    requires email != "" && password != ""
    requires forall i :: 0 <= i < |users| ==> users[i].email != Some(email)
    ensures Login(users, Some(email), Some(password)) == InvalidCredentials
    ensures Login(users, Some(email), Some(password)).Code() == 401
  {
  }

  /** An unknown email and a wrong password for a known email get the same answer,
      status and message alike, so a caller cannot tell which one happened. */
  lemma UnknownEmailLooksLikeWrongPassword(unknown: seq<User>, known: seq<User>, email: string, password: string)
    requires email != "" && password != ""
    requires forall i :: 0 <= i < |unknown| ==> unknown[i].email != Some(email)
    requires exists i :: 0 <= i < |known| && known[i].email == Some(email)
    requires forall i :: 0 <= i < |known| && known[i].email == Some(email) ==> known[i].password != password
    ensures Login(unknown, Some(email), Some(password)) == Login(known, Some(email), Some(password))
    ensures Login(known, Some(email), Some(password)).Code() == 401
    ensures Login(known, Some(email), Some(password)).Message() == "Invalid username or password."
  {
  }

  /** Equal passwords on the first user with the email give 200 and a welcome that
      names that user. */
  lemma FirstMatchWelcomed(users: seq<User>, email: string, password: string, i: nat)
    requires email != "" && password != ""
    requires i < |users| && users[i].email == Some(email) && users[i].password == password
    requires forall j :: 0 <= j < i ==> users[j].email != Some(email)
    ensures Login(users, Some(email), Some(password)) == Welcome(users[i].username)
    ensures Login(users, Some(email), Some(password)).Code() == 200
    ensures Login(users, Some(email), Some(password)).Message() == "Welcome, " + users[i].username + "!"
  {
  }

  /** Only the first user with the email is tried: a later user with that email and
      the right password does not help when the first one's password differs. */
  lemma FirstMatchDecides(users: seq<User>, email: string, password: string, i: nat)
    requires email != "" && password != ""
    requires i < |users| && users[i].email == Some(email) && users[i].password != password
    requires forall j :: 0 <= j < i ==> users[j].email != Some(email)
    ensures Login(users, Some(email), Some(password)) == InvalidCredentials
  {
  }

  // ---- /users/:id ----

  datatype Reply = Found(user: User) | Message(text: string) | NotFound(error: string)
  {
    function Code(): int
    {
      match this
      case Found(_) => 200
      case Message(_) => 200
      case NotFound(_) => 404
    }
  }

  datatype Outcome = Outcome(reply: Reply, users: seq<User>)

  const UserNotFoundError := "User not found"
  const UserDeletedMessage := "User deleted successfully"

  /** `WHERE id = $1`. */
  function IdIs(id: int): User -> bool
  {
    (u: User) => u.id == id
  }

  /** GET /users/:id: the first row with the id, or 404. */
  function GetUser(users: seq<User>, id: int): (r: Reply)
    ensures r.Code() == 404 <==> !Tables.AnyWhere(users, IdIs(id))
    ensures r.Code() == 404 ==> r == NotFound(UserNotFoundError)
    ensures r.Code() == 200 ==> r.Found? && r.user in users && r.user.id == id
  {
    match Tables.FirstWhere(users, IdIs(id))
    case None => NotFound(UserNotFoundError)
    case Some(i) => Found(users[i])
  }

  /** PUT /users/:id: name and email are set on every row with the id. */
  function UpdateUser(users: seq<User>, id: int, name: Option<string>, email: Option<string>): (r: Outcome)
    ensures r.reply.Code() == 404 <==> !Tables.AnyWhere(users, IdIs(id))
    ensures r.reply.Code() == 404 ==> r == Outcome(NotFound(UserNotFoundError), users)
    ensures r.reply.Code() == 200 ==>
      r.reply.Found? && r.reply.user.id == id && r.reply.user.name == name && r.reply.user.email == email
      && r.reply.user in r.users && |r.users| == |users|
      && forall i :: 0 <= i < |users| ==>
           r.users[i] == if users[i].id == id then users[i].(name := name, email := email) else users[i]
  {
    match Tables.FirstWhere(users, IdIs(id))
    case None => Outcome(NotFound(UserNotFoundError), users)
    case Some(i) =>
      var rows := Tables.UpdateWhere(users, IdIs(id), (u: User) => u.(name := name, email := email));
      Outcome(Found(rows[i]), rows)
  }

  /** DELETE /users/:id. */
  function DeleteUser(users: seq<User>, id: int): (r: Outcome)
    ensures r.reply.Code() == 404 <==> !Tables.AnyWhere(users, IdIs(id))
    ensures r.reply.Code() == 404 ==> r == Outcome(NotFound(UserNotFoundError), users)
    ensures r.reply.Code() == 200 ==>
      r.reply == Message(UserDeletedMessage) && forall u :: u in r.users <==> u in users && u.id != id
  {
    if !Tables.AnyWhere(users, IdIs(id)) then Outcome(NotFound(UserNotFoundError), users)
    else Outcome(Message(UserDeletedMessage), Tables.DeleteWhere(users, IdIs(id)))
  }

  /** What GET, PUT and DELETE answer for an id agrees: all three are 404 together. */
  lemma ByIdHandlersAgree(users: seq<User>, id: int, name: Option<string>, email: Option<string>)
    ensures GetUser(users, id).Code() == UpdateUser(users, id, name, email).reply.Code()
    ensures GetUser(users, id).Code() == DeleteUser(users, id).reply.Code()
  {
  }

  /** A delete keeps every other user as often as before, and a second delete of the
      same id is a 404. */
  lemma DeleteKeepsOthers(users: seq<User>, id: int, x: User)
    requires Tables.AnyWhere(users, IdIs(id))
    ensures multiset(DeleteUser(users, id).users)[x] == if x.id == id then 0 else multiset(users)[x]
    ensures DeleteUser(DeleteUser(users, id).users, id).reply.Code() == 404
  {
    Tables.DeleteWhereCounts(users, IdIs(id), x);
  }

  /** After a delete the user can no longer log in. */
  lemma DeletedUserCannotLogIn(users: seq<User>, id: int, email: Option<string>, password: Option<string>)
    requires forall u :: u in users && u.email == email ==> u.id == id
    ensures !Login(DeleteUser(users, id).users, email, password).Welcome?
  {
  }
}

=== FILE: wrappers.dfy ===
/** The optional value used for absent request fields and for lookups that may find nothing. */
module Wrappers {

  datatype Option<+T> = None | Some(value: T)
}
